=== FILE: README.md ===
# sjson in Dafny

A model of sjson, a small relaxed-JSON reader with an optional writer. Its
document tree is made of `sJSON` nodes. Each node has:

- one of seven kind tags;
- a reference flag;
- a string, a number, a name and the name's 32-bit hash;
- a chain of children.

The model covers:

- the comment-aware skipper;
- the value, array, object, string, bareword-key and number parsers;
- `sJSONparse`;
- the array and object accessors and editors (get, add, detach, delete,
  replace, add-by-reference);
- the release order of `sJSONdelete`;
- the serializer `print_value` / `print_array` / `print_object` /
  `print_string_ptr`.

The model is of the build with `WRITE_SUPPORT_ENABLED`. `_DEBUG` turns that
flag on. It is the build in which nodes keep their names and the writer
exists.

The parser accepts more than JSON. It accepts:

- `//` and `/* */` comments;
- `=` as well as `:` between key and value;
- bareword keys;
- optional commas;
- an implicit top-level object when the text does not start with `{` or `[`;
- an object closed by the end of the input;
- a string closed by the end of the input;
- any escaped byte in a string, standing for itself (`\q` is `q`);
- raw control bytes in a string;
- lone surrogates in `\uXXXX`.

Each rule is modelled as the C code has it. The escapes that section 7 of
RFC 8259 lists decode as it specifies. `\uXXXX` becomes one to three bytes
with the bit patterns of section 3 of RFC 3629, without joining surrogate
pairs, so a lone surrogate such as `\uD800` is encoded too. The escaper
writes only section-7 escapes.

Modelling choices:

- **Text.** Text is `seq<char>`, the bytes before the C terminator. Position
  `|s|` stands for the NUL byte.
- **Parse results.** A parse step returns `Ok(value, next)` or `Err(pos)`.
  `pos` is where the global error pointer `ep` would point.
- **Hashes.** The murmur hash of names is a parameter `hash: seq<char> -> bv32`.
- **Numbers.** The lexer yields the exact triple (sign, integer mantissa,
  decimal exponent) that the C code folds into a double.
- **Number rendering.** The printer takes the number renderer as a parameter.
  The round-trip theorems use the `%d` branch of `print_number`.
- **Tree structure.** A node owns the sequence of its children, in chain
  order.

Modules:

| file | module | covers |
|---|---|---|
| base.dfy | `Base` | options, parse results, text predicates |
| tree.dfy | `Tree` | nodes, kind tags, type word, references, `sJSONdelete` |
| skipper.dfy | `Skipper` | `skip` |
| numbers.dfy | `Numbers` | `parse_number`, the `%d` text |
| strings.dfy | `Strings` | `parse_string`, `parse_string_or_identifier`, `print_string_ptr` |
| parser.dfy | `Parser` | `parse_value`, `parse_array`, `parse_object`, `sJSONparse` |
| parse_facts.dfy | `ParseFacts` | the parser's error paths and single steps |
| printer.dfy | `Printer` | `print_value`, `print_array`, `print_object` |
| access.dfy | `Access` | get, add, detach, delete, replace |
| roundtrip.dfy | `RoundTrip` | printing then parsing gives back the tree |

## Model

| member | source | states |
|---|---|---|
| Tree.TagsDistinct | sjson.h:28-34 | the seven kind tags are pairwise distinct, and each tag reads back as its kind |
| Tree.TypeWordRecoversKind | sjson.cpp:413 | masking a node's type word with 255 gives its kind even when the reference bit is set; the bit is set exactly on references |
| Tree.Reference | sjson.cpp:732-744 | a reference has the reference flag, hash 0 and no name; it keeps the original's kind, children, string and numbers, and its masked type word still names the original's kind |
| Tree.OwnsExactlyNonReferences | sjson.cpp:95-98 | a node owns its children and string exactly when it is not a reference |
| Tree.DeleteChainAppend | sjson.cpp:93-105 | deleting a chain with one more node at the end releases the shorter chain's records, then that node's records |
| Tree.DeleteReference | sjson.cpp:95-103 | deleting a reference releases only its name and its own record, never the children or string it shares |
| Skipper.LineCommentEnd | sjson.cpp:320-326 | a `//` comment runs to the first CR or LF, or to the end, and contains neither |
| Skipper.BlockCommentEnd | sjson.cpp:327-337 | the comment search stops just after the first `*/`, or at the end when none follows |
| Skipper.Skip | sjson.cpp:313-342 | the skipper never moves backwards; it stops at neither a blank nor a comment opener; it stays put where it already stands at such a byte |
| Skipper.SkipIdempotent | sjson.cpp:313-342 | skipping twice is skipping once |
| Skipper.SkipBlanks | sjson.cpp:317-318 | a run of bytes 1..32 is stepped over as a whole |
| Skipper.SelfClosingComment | sjson.cpp:329-336 | `/*/` is a complete comment, because the search for `*` starts at the opener's own `/` |
| Skipper.UnterminatedComment | sjson.cpp:329-336 | a block comment without `*/` swallows the rest of the input |
| Skipper.SkipAsWritten | sjson.cpp:317-319 | the C skipper faults on a null cursor, because the comment test reads through it unguarded; on a real cursor it behaves like `Skip` |
| Numbers.DigitsEnd | sjson.cpp:116 | a digit run ends at the first non-digit, and everything before that is a digit |
| Numbers.AccumulateDigitsValue | sjson.cpp:116-117 | the `n*10 + digit` loop computes the accumulator shifted by the run's length plus the run's decimal value |
| Numbers.DigitsValueCons | sjson.cpp:116 | a digit run's value is its first digit scaled by the length of the rest, plus the value of the rest |
| Numbers.LexInteger | sjson.cpp:115-116 | the integer part is read exactly when it starts on 1-9; it runs over the whole digit run, and its value is the run's decimal value |
| Numbers.DigitsValueAppend | sjson.cpp:116-117 | digits written after other digits shift their value by one decimal place each |
| Numbers.LexFractionValue | sjson.cpp:117 | without a `.` nothing changes; after it, the next byte (whatever it is) and the digit run are decimal places: the mantissa is shifted by their number and extended by their value, the scale is minus their number, and a `.` ending the input reads the terminator as the one byte |
| Numbers.LexExponentValue | sjson.cpp:118-121 | without `e`/`E` there is no exponent; after it, an optional sign and the digit run give the exponent, negated after `-` |
| Numbers.FractionTriple | sjson.cpp:116-117 | the fraction extends the integer digits' value to that of the integer digits followed by the fraction's bytes |
| Numbers.LexNumberTriple | sjson.cpp:109-122 | the triple is negative exactly after a leading `-`; past it and one leading `0`, the mantissa is the value of the integer digits followed by the fraction's bytes, the exponent is minus the number of fraction bytes plus the signed exponent, and the cursor stops after the exponent digits, at least one byte on from a `-` or a digit |
| Numbers.LoneMinus | sjson.cpp:114-122 | a `-` that nothing follows is negative zero, one byte long |
| Numbers.LeadingZeroDigits | sjson.cpp:115-116 | a leading `0` is stepped over and digits 1-9 after it are still read: `0` then digits lexes as the digits do |
| Numbers.ZeroThenZero | sjson.cpp:115-116 | a second `0` after a leading `0` is not read: `00` is zero, one byte long |
| Numbers.DotTakesNextByte | sjson.cpp:117 | the byte after `.` is read as a digit whatever it is: `1.x` has mantissa `10 + ('x' - '0')` and exponent -1 |
| Numbers.LoneMinusExample | sjson.cpp:114 | `-` lexes to negative zero and one byte |
| Numbers.LeadingZeroExample | sjson.cpp:115-116 | `012]` lexes to 12 and stops at `]` |
| Numbers.LexFullExample | sjson.cpp:109-122 | `1.25e-3,` lexes to mantissa 125, exponent -5, and stops at `,` |
| Numbers.DecimalTextValue | sjson.cpp:132-139 | the `%d` digits of `n` read back as `n` |
| Numbers.LexDecimal | sjson.cpp:109-122 | the `%d` text of an integer, followed by a byte that cannot extend a number, lexes back to that integer with exponent 0 and ends just past the text |
| Numbers.LexUnsigned | sjson.cpp:115-116 | the unsigned `%d` text starts with `0` exactly for zero, and the integer part reads it back in full |
| Strings.Hex4 | sjson.cpp:229 | four hex digits give a 16-bit code unit |
| Strings.Utf8Encodes | sjson.cpp:228-237 | the bytes written for `\uXXXX` are the UTF-8 encoding of the code unit: a lead byte of the right class, continuation bytes, and the same code point decoded |
| Strings.DecodeBody | sjson.cpp:212-249 | the decoded text is no longer than the first pass measured; a failure points at a backslash |
| Strings.MeasureUnicode | sjson.cpp:207-209 | the first pass counts a `\uXXXX` escape as 5 bytes more than what follows |
| Strings.DecodeString | sjson.cpp:196-250 | a string parse starts at a quote and moves forward; without a quote it fails where it stands |
| Strings.DecodeShortEscapes | sjson.cpp:217-243 | `\t` decodes to a tab and `\q` to `q`, each escape to one byte, in order |
| Strings.DecodeEuro | sjson.cpp:228-237 | `\u20AC` decodes to the three UTF-8 bytes E2 82 AC |
| Strings.DecodeRawControl | sjson.cpp:216-218 | a raw control byte inside the quotes is copied unchanged |
| Strings.DecodeLoneSurrogate | sjson.cpp:228-237 | the lone surrogate `\uD800` decodes to the three bytes ED A0 80 |
| Strings.DecodeUnterminated | sjson.cpp:245-249 | a string without its closing quote succeeds at the end of the input |
| Strings.IdentEnd | sjson.cpp:176-181 | an identifier runs to the first byte that is not a letter, digit or `_` |
| Strings.ParseKey | sjson.cpp:155-192 | a key is a quoted string or a maximal identifier, and a letter or `_` always yields a key; otherwise it fails where it stands |
| Strings.HexDigit | sjson.cpp:289 | the hex digit printed for a nibble reads back as that nibble |
| Strings.EscapeBody | sjson.cpp:261-292 | the escaped body is exactly as long as the first pass of the escaper measured |
| Strings.PrintStringPtr | sjson.cpp:253-296 | a null string prints as nothing; otherwise the text is quoted and two bytes longer than the measured body |
| Strings.EscapeCharDecodes | sjson.cpp:212-249 | the decoder reads one escaped byte back as that byte and goes on after it |
| Strings.BodyRoundTrip | sjson.cpp:212-249 | an escaped body followed by a quote decodes back to the original text and stops just past the quote |
| Strings.EscapeRoundTrip | sjson.cpp:196-296 | `parse_string` reads back what `print_string_ptr` wrote, up to the closing quote |
| Strings.EscapeBodyNoNul | sjson.cpp:276-292 | the escaper never writes a NUL byte |
| Strings.PrintStringNoNul | sjson.cpp:253-296 | the escaper's whole output is a C string |
| Parser.ArrayWellFormed | sjson.cpp:440-460 | a fresh array holding well-formed unnamed elements is well formed |
| Parser.ObjectWellFormed | sjson.cpp:550-595 | a fresh object holding well-formed named members is well formed |
| Parser.ParseString | sjson.cpp:196-250 | a string node starts at a quote; without a quote the parse fails in place |
| Parser.ParseValue | sjson.cpp:377-405 | a parsed value is well formed and unnamed and moves the cursor forward; it fails in place exactly when no value can start there; each kind starts with its own byte, and the keywords consume exactly their letters |
| Parser.ParseArray | sjson.cpp:427-465 | an array parse starts at `[`, ends just past a `]`, and builds a well-formed unnamed array |
| Parser.ParseElements | sjson.cpp:446-464 | the elements up to the closing `]` are well formed and unnamed |
| Parser.ParseMember | sjson.cpp:552-566 | a member is named with its key and the key's hash, and is well formed |
| Parser.NamedResult | sjson.cpp:555-559 | naming a parsed value (through `Tree.Named`) changes only its name and hash, and keeps success, cursor and error |
| Parser.ParseObject | sjson.cpp:537-601 | an object parse ends just past a `}` or at the end of the input, and builds a well-formed unnamed object |
| Parser.ParseMembers | sjson.cpp:568-600 | the members up to the `}` or the end are well formed and named with their keys' hashes |
| Parser.Parse | sjson.cpp:345-364 | a parsed document is a well-formed unnamed array or object; an error lies within the text |
| Parser.ErrorPtr | sjson.cpp:42 | the error pointer is null exactly when the parse succeeded |
| ParseFacts.EmptyArray | sjson.cpp:435-436 | `[` followed by `]`, with only blanks and comments between, is the empty array |
| ParseFacts.CommaWithoutValue | sjson.cpp:453-454 | a comma followed by no value fails where the value should start |
| ParseFacts.UnclosedArray | sjson.cpp:446-458 | an array running into the end of the input is an error there; the C code reaches the faulting `skip` of Findings instead |
| ParseFacts.ArrayNeedsBracket | sjson.cpp:429-462 | a successful array parse starts at `[` and ends just past `]` |
| ParseFacts.KeywordPrefix | sjson.cpp:380-392 | `null`, `false` and `true` are recognised before anything else and consume exactly 4, 5 and 4 bytes, `true` with `valueInt` 1 |
| ParseFacts.KeywordWithoutBoundary | sjson.cpp:380-383 | `nullx` reads as `null` ending before the `x`; inside `[nullx]` the stray `x` fails the array at its position, where the C code faults as recorded under Findings |
| ParseFacts.FirstElementFails | sjson.cpp:442-444 | when the first element fails, the array fails with that element's error |
| ParseFacts.BadElementFaults | sjson.cpp:442 | on `[x]` the element parse fails, and the C code hands that null cursor to `skip`, which faults |
| ParseFacts.MemberKeyError | sjson.cpp:552-554 | a key that fails makes the member fail at the key's error, in place when no key can start |
| ParseFacts.MemberNeedsSeparator | sjson.cpp:560-563 | a key not followed by `:` or `=` is an error at the byte after the key |
| ParseFacts.MemberNamed | sjson.cpp:552-566 | a parsed member carries its key as name and the key's hash, and is the value parsed after the separator |
| ParseFacts.MemberOk | sjson.cpp:552-566 | a successful member has a key, then a separator, and is the value after the separator, named |
| ParseFacts.BarewordKey | sjson.cpp:160-186 | a bareword key is the maximal identifier at the cursor |
| ParseFacts.ImplicitObject | sjson.cpp:350-362 | text not starting with `{` or `[` is parsed as the members of an implicit object |
| ParseFacts.EmptyDocument | sjson.cpp:345-364 | an empty document is an error at position 0; the C code hands the failed key parse of line 552 to `skip` and faults (Findings) |
| ParseFacts.BareAssignment | sjson.cpp:345-364 | `a=1` parses to an object with one member `a` holding the number 1 |
| ParseFacts.ArrayStep | sjson.cpp:441-459 | an array is its first element followed by the rest of its elements |
| ParseFacts.ObjectClosed | sjson.cpp:546-547 | an object body starting at `}` is the empty object |
| ParseFacts.MembersClosed | sjson.cpp:568-599 | a member list at `}` is empty and consumes the brace |
| ParseFacts.ElementsStep | sjson.cpp:453-454 | a comma, a value and the rest make one more element |
| ParseFacts.ObjectStep | sjson.cpp:549-568 | an object is its first member followed by the rest of its members |
| ParseFacts.MembersStep | sjson.cpp:575-591 | a comma, a member and the rest make one more member |
| ParseFacts.MemberStep | sjson.cpp:552-566 | a key, a colon and a value make a member named with the key and its hash |
| ParseFacts.MemberUnfold | sjson.cpp:552-566 | a member after a key and colon is the following value, named with the key |
| Printer.PrintEntries | sjson.cpp:487-496 | there is one rendering per child |
| Printer.Tabs | sjson.cpp:664-666 | the indentation is `k` tab bytes |
| Printer.PrintNames | sjson.cpp:633 | each name is printed with `print_string_ptr` |
| Printer.EntriesAreChildren | sjson.cpp:487-496 | rendering a child list succeeds exactly when every child renders, and the entries are the children's own texts |
| Printer.PrintReference | sjson.cpp:409-423 | a reference prints exactly like the node it refers to |
| Printer.SeparatedTailLength | sjson.cpp:518-528 | the separated entries take their summed lengths plus one separator each |
| Printer.ArrayFits | sjson.cpp:469-533 | the array text is `[`, the entries with separators between them, and `]`; with its NUL it fits the buffer the C code allocates |
| Printer.MemberLinesLength | sjson.cpp:629-681 | the member lines are one byte shorter than the member budget the C code allocates, and equal to it when there are no members |
| Printer.ObjectFits | sjson.cpp:605-691 | the object text with its NUL fits the buffer the C code allocates |
| Printer.PrintedNoNul | sjson.cpp:409-423 | what the printer writes never contains a NUL byte, whatever the tree holds |
| Printer.ArrayNoNul | sjson.cpp:469-533 | an array's text has no NUL byte |
| Printer.ObjectNoNul | sjson.cpp:605-691 | an object's text has no NUL byte |
| Printer.ChildrenNoNul | sjson.cpp:487-496 | no child's text has a NUL byte |
| Printer.JoinedNoNul | sjson.cpp:518-528 | joining NUL-free texts with a NUL-free separator adds no NUL |
| Printer.MemberLinesNoNul | sjson.cpp:663-681 | member lines built from NUL-free names and values have no NUL |
| Access.GetArraySize | sjson.cpp:695-703 | the size is the number of children |
| Access.ChainItem | sjson.cpp:704-711 | the walk returns the child at the clamped index, or nothing past the end |
| Access.GetArrayItem | sjson.cpp:704-711 | an item exists exactly when the clamped index is in range, and it is that child; a negative index acts as 0 |
| Access.ChainFind | sjson.cpp:719-724 | the lookup finds the first child with the hash, or reports that none has it |
| Access.GetObjectItem | sjson.cpp:719-724 | an item exists exactly when some child has the hash; it is the first such child |
| Access.AddItemToArray | sjson.cpp:747-758 | a null item changes nothing; otherwise the item is appended and the earlier children and all other fields are unchanged |
| Tree.Named | sjson.cpp:762-767 | naming stamps the name and its hash and changes nothing else |
| Access.AddItemToObject | sjson.cpp:759-769 | the named item is appended; a null item changes nothing |
| Access.AddItemReferenceToArray | sjson.cpp:770-772 | exactly one node is appended and the array is otherwise unchanged; that node, built by `create_reference` (sjson.cpp:732-744), is the item with the reference flag set, hash 0 and no name, and everything else copied |
| Access.AddItemReferenceToObject | sjson.cpp:773-775 | exactly one node is appended and the object is otherwise unchanged; that node, built by `create_reference` (sjson.cpp:732-744), is the reference named with the key and its hash, with the flag set and everything else of the item copied |
| Access.DetachItemFromArray | sjson.cpp:777-793 | a detached item exists exactly when the index is in range; it is that child, and the others keep their order |
| Access.DeleteItemFromArray | sjson.cpp:794-796 | in range, the child at the clamped index leaves, the others keep their order, the other fields are unchanged, and the child is released as `sJSONdelete` releases it; out of range nothing happens |
| Access.DetachItemFromObject | sjson.cpp:797-810 | the detached item is what the lookup finds; exactly then the first child with the key's hash leaves, the others keep their order and the other fields are unchanged; otherwise nothing changes |
| Access.DeleteItemFromObject | sjson.cpp:811-814 | the first child with the key's hash leaves, the others keep their order and the other fields are unchanged, and that child is released; a missing key changes nothing |
| Access.ReplaceItemInArray | sjson.cpp:816-834 | the child at the index is replaced in place and released; out of range nothing happens |
| Access.ReplaceItemInObject | sjson.cpp:835-851 | a missing key changes nothing; otherwise the first child with the key's hash is replaced in place by the new item named with the key, nothing else changes, and the old child is released |
| Access.AddThenGet | sjson.cpp:747-758 | after appending, the size grows by one, the new last item is the added one, and the earlier items are unchanged |
| Access.FindAppend | sjson.cpp:719-724 | a hash lookup on a chain with one more node finds the old answer, else the new node if its hash matches |
| Access.AddThenLookup | sjson.cpp:759-769 | a key added to an object is found only when no earlier member has the same hash, so earlier members shadow it |
| Access.CountHashSplit | sjson.cpp:719-724 | the members with a hash split across any cut of the chain |
| Access.CountHashZero | sjson.cpp:719-724 | no member has the hash exactly when the count is zero |
| Access.CountWithout | sjson.cpp:777-793 | removing a member with the hash lowers the count by one |
| Access.DetachThenLookup | sjson.cpp:797-810 | after detaching a key, the key is gone exactly when at most one member had its hash |
| Access.AddThenDetach | sjson.cpp:747-793 | detaching the last item undoes an append: the array is back and the item is returned |
| Access.AddThenDelete | sjson.cpp:747-796 | deleting the last item undoes an append and releases exactly what the item owns |
| Access.AddThenDeleteKey | sjson.cpp:759-814 | deleting a key that was absent before it was added gives back the original object and releases the added item under its name |
| Access.AddThenDetachKey | sjson.cpp:759-810 | detaching a key that was absent before it was added gives back the original object and the added item under its name |
| Access.ReplaceThenLookup | sjson.cpp:835-851 | after replacing a present key, the lookup finds the new item, named with the key, at the same index; every other child is unchanged |
| Access.ReplaceBack | sjson.cpp:816-834 | putting the old child back undoes a replacement, and that second replacement releases the item the first put in |
| Access.MultisetSplit | sjson.cpp:91-106 | the released records of three parts add up independently of order |
| Access.DeleteAfterReference | sjson.cpp:770-772 | adding a reference to an array makes deletion release exactly one more node record |
| Access.DeleteAfterObjectReference | sjson.cpp:773-775 | adding a named reference makes deletion release exactly one more name and node record |
| Access.DeleteAppended | sjson.cpp:91-106 | deleting a container with one more child releases what that child releases, on top |
| RoundTrip.IntegerRender | sjson.cpp:132-139 | the `%d` branch renders exactly the exponent-0 triples other than negative zero, as text starting with `-` or a digit |
| RoundTrip.Unname | sjson.cpp:555-559 | dropping the name leaves an unnamed node exactly when it is not a reference |
| RoundTrip.SkipOver | sjson.cpp:317-318 | printed blanks before a solid byte are skipped to that byte |
| RoundTrip.PrintedStart | sjson.cpp:409-423 | printed values start with a byte the skipper stops at; arrays with `[`, objects with `{` |
| RoundTrip.NoKeyword | sjson.cpp:380-392 | only `n`, `f` and `t` can start a keyword |
| RoundTrip.Canonical | sjson.cpp:377-405 | a well-formed node is a fresh item with its kind and payload |
| RoundTrip.ValueRoundTrip | sjson.cpp:377-423 | a printed value, followed by any byte that cannot extend a number, parses back to the value without its name and ends just past the text |
| RoundTrip.ScalarRoundTrip | sjson.cpp:377-423 | keywords, integers and strings parse back to themselves |
| RoundTrip.KeywordRoundTrip | sjson.cpp:380-392 | `null`, `false` and `true` parse back to themselves |
| RoundTrip.NumberRoundTrip | sjson.cpp:109-139 | an integer printed by `%d` parses back to the same triple |
| RoundTrip.StringRoundTrip | sjson.cpp:196-296 | an escaped string parses back to the same text |
| RoundTrip.ArrayRoundTrip | sjson.cpp:427-533 | a printed array, formatted or not, parses back to the same array |
| RoundTrip.ElementsRoundTrip | sjson.cpp:446-464 | separated printed elements parse back to the same children |
| RoundTrip.ObjectRoundTrip | sjson.cpp:537-691 | a printed object, formatted or not, parses back to the same object, every member with its name and hash |
| RoundTrip.MemberRoundTrip | sjson.cpp:552-566 | a printed name, colon and value parse back to the member, name and hash included |
| RoundTrip.MembersRoundTrip | sjson.cpp:568-600 | printed member lines and the closing parse back to the same members |
| RoundTrip.IntegerRenderClean | sjson.cpp:132-139 | the `%d` text never holds a NUL byte |
| RoundTrip.PrintThenParse | sjson.cpp:345-373 | `sJSONparse` reads back what `sJSONprint` or `sJSONprintUnformatted` wrote for an array or object: the text is a C string, it is consumed whole, and the tree is the original without its name |
| RoundTrip.ReparseParsed | sjson.cpp:345-373 | a parsed document, printed and parsed again, is the same tree |

## Left out

Whole areas:

- Memory: the allocator hooks, out-of-memory paths and leaks (sjson.cpp:57-88). All allocation is infallible.
- Pointer layout: the `prev`/`next` aliasing of the heap chains, and references left dangling after their original is deleted. Children are owned sequences.
- Floating point: the double `parse_number` computes (sjson.cpp:123-126), the `%f`/`%e` branch of `print_number`, and the `create*` constructors (sjson.cpp:853-869). The lexer keeps the exact triple instead, and the renderer is a parameter.
- `valueInt` of a parsed number, which is the truncation of that double. It stays 0 in the model.
- `strcasecmp` (sjson.cpp:44-55): its callers are commented out.
- json.h is not part of this model.
- The murmur hash is a parameter. Collisions are therefore allowed, and the lookup lemmas are stated by hash, not by name.
- `ep`: the global error pointer becomes the error position of the result.
- `suffix_object` (sjson.cpp:727-730) becomes a sequence append.

Inputs on which the model and the C code part ways:

- A `\u` escape without four hex digits is an error at the backslash here. The C code decodes whatever `sscanf("%4x")` reads (sjson.cpp:229), so `\u12G4` gives the byte 0x12. It then skips four bytes (sjson.cpp:237) whatever they were, which can step over the closing quote or past the terminator. With no hex digit at all, `uc` is left uninitialised.
- A trailing backslash is an error at the backslash. The C code copies the terminator and reads on past it.
- An unterminated block comment runs to the end of the input.
- A `.` as the last byte of a number reads the terminator as a digit.

Weaker contracts and other limits:

- Numbers.LexExponent: the exponent is an unbounded integer. The C code accumulates it in an `int` (sjson.cpp:111, 120), which overflows, undefined behaviour in C, on an exponent above 2^31-1 such as `1e9999999999`.
- Parser.ParseValue: no recursion-depth limit. The C stack depth is not modelled.
- RoundTrip.IntegerRender: does not model the 32-bit range check of `print_number`, because integers are unbounded here.
- RoundTrip.IntegerRender: refuses the scaled integral triples and negative zero that C's `%d` branch also prints (a parsed `1.0`, `1e2` or `-0` prints as `1`, `100` or `0`), because those texts parse back to a different triple. RoundTrip.PrintThenParse and RoundTrip.ReparseParsed therefore say nothing about documents holding such numbers.
- Access.ReplaceItemInObject: the name buffer the C code duplicates for the new item is not released when the item already had one. That leak is not modelled.
- Access.AddItemToObject: the release of the item's old name buffer is not modelled. Nothing is returned for it.
- Access.AddItemReferenceToArray: a failed reference allocation is not modelled.
- Parser.Parse: requires a NUL-free text. The C input is a C string, so a NUL can only end it.

## Findings

| source | as written | input that shows it | evidently intended | confidence | as-written member | corrected member |
|---|---|---|---|---|---|---|
| sjson.cpp:317-319, 442 | `skip` guards its first loop against a null cursor, then dereferences the cursor unguarded in the comment test. `parse_array` and `parse_object` pass the null result of a failed `parse_value` or key parse straight into `skip` (lines 442, 454, 456, 552, 564, 576, 578, 590). | `[x]` | a failed element or member makes the container fail with the element's error position | not executed | Skipper.SkipAsWritten | ParseFacts.FirstElementFails |

- Skipper.SkipAsWritten models the C skipper on a possibly-null cursor and faults on null.
- ParseFacts.BadElementFaults exhibits the fault on `[x]`. The element parse fails at 1, and `skip` is then called on the null cursor.
- The same null cursor reaches `skip` from a failed key. This happens on the empty document (line 552) and on an unclosed array such as `[1` (line 456).
- The rest of the model uses Parser.ParseArray and Parser.ParseObject, which propagate the failure instead.
- ParseFacts.FirstElementFails proves that the array then fails with exactly the element's error position.

=== FILE: access.dfy ===
/** Queries and edits on a node's child chain (sjson.cpp, lines 695-851):
    size and index lookup, lookup by key hash, appending plain and reference
    items, detaching, deleting and replacing.

    The C functions edit the tree in place; here each returns the edited
    container, and the deleting ones also return what `sJSONdelete` hands
    to the free hook. Allocation is infallible. */
module Access {
  import opened Base
  import opened Tree

  /** The index `which` a walk that steps while `which > 0` stops at. */
  function Clamp(which: int): nat { if which > 0 then which else 0 }

  /** The chain walk of `sJSONgetArraySize`: one count per sibling. */
  function ChainLength(chain: seq<Node>): (n: nat)
    ensures n == |chain|
  {
    if chain == [] then 0 else 1 + ChainLength(chain[1..])
  }

  /** `sJSONgetArraySize`: the number of items of an array or members of an
      object. */
  function GetArraySize(a: Node): (n: nat)
    ensures n == |a.children|
  {
    ChainLength(a.children)
  }

  /** The walk of `sJSONgetArrayItem`: step while there is a node and the
      count is positive. */
  function ChainItem(chain: seq<Node>, item: int): (r: Option<Node>)
    ensures Clamp(item) < |chain| ==> r == Some(chain[Clamp(item)])
    ensures Clamp(item) >= |chain| ==> r == None
    decreases |chain|
  {
    if chain == [] then None
    else if item > 0 then ChainItem(chain[1..], item - 1)
    else Some(chain[0])
  }

  /** `sJSONgetArrayItem`: child number `item`, a negative number counting
      as 0, or nothing past the end. */
  function GetArrayItem(a: Node, item: int): (r: Option<Node>)
    ensures r.Some? <==> Clamp(item) < |a.children|
    ensures r.Some? ==> r.value == a.children[Clamp(item)]
  {
    ChainItem(a.children, item)
  }

  /** The walk of `sJSONgetObjectItem`: the position of the first node whose
      stored hash equals `h`. */
  function ChainFind(chain: seq<Node>, h: bv32): (r: Option<nat>)
    ensures r.Some? ==> r.value < |chain| && chain[r.value].nameHash == h
    ensures r.Some? ==> forall k :: 0 <= k < r.value ==> chain[k].nameHash != h
    ensures r.None? ==> forall k :: 0 <= k < |chain| ==> chain[k].nameHash != h
  {
    if chain == [] then None
    else if chain[0].nameHash == h then Some(0)
    else match ChainFind(chain[1..], h)
      case None => None
      case Some(k) => Some(k + 1)
  }

  function IndexOfHash(o: Node, h: bv32): Option<nat>
  {
    ChainFind(o.children, h)
  }

  /** `sJSONgetObjectItem`: the first member, in chain order, whose stored
      hash is `h`. Only hashes are compared, never names. */
  function GetObjectItem(o: Node, h: bv32): (r: Option<Node>)
    ensures r.Some? <==> exists k :: 0 <= k < |o.children| && o.children[k].nameHash == h
    ensures r.Some? ==> r.value.nameHash == h
    ensures r.Some? ==> exists k :: (0 <= k < |o.children| && o.children[k] == r.value
                                     && forall j :: 0 <= j < k ==> o.children[j].nameHash != h)
  {
    match IndexOfHash(o, h)
    case None => None
    case Some(k) => Some(o.children[k])
  }

  /** `sJSONaddItemToArray`: a null item changes nothing; otherwise the item
      becomes the new last child. */
  function AddItemToArray(a: Node, item: Option<Node>): (r: Node)
    ensures item.None? ==> r == a
    ensures item.Some? ==> (|r.children| == |a.children| + 1
                            && r.children[|a.children|] == item.value
                            && r.children[..|a.children|] == a.children)
    ensures r == a.(children := r.children)
  {
    match item
    case None => a
    case Some(x) => a.(children := a.children + [x])
  }

  /** `sJSONaddItemToObject`: append the named item; a null item changes
      nothing. */
  function AddItemToObject(hash: Hasher, o: Node, key: seq<char>, item: Option<Node>): (r: Node)
    requires NoNul(key)
    ensures item.None? ==> r == o
    ensures item.Some? ==> r.children == o.children + [Named(hash, key, item.value)]
    ensures r == o.(children := r.children)
  {
    match item
    case None => o
    case Some(x) => AddItemToArray(o, Some(Named(hash, key, x)))
  }

  /** `sJSONaddItemReferenceToArray`: append a reference to `item`; the
      array is otherwise unchanged. The appended node is `item` with the
      reference flag set, hash 0 and no name, and carries everything else
      of `item` over. */
  function AddItemReferenceToArray(a: Node, item: Node): (r: Node)
    ensures |r.children| == |a.children| + 1
    ensures r == a.(children := a.children + [r.children[|a.children|]])
    ensures var ref := r.children[|a.children|];
            && ref == Reference(item)
            && ref.isRef && ref.nameHash == 0 && ref.name == None
            && ref.(isRef := item.isRef, nameHash := item.nameHash, name := item.name) == item
  {
    AddItemToArray(a, Some(Reference(item)))
  }

  /** `sJSONaddItemReferenceToObject`: append a reference to `item` under
      `key`; the object is otherwise unchanged. The appended node is the
      reference named with the key, and carries everything else of `item`
      over. */
  function AddItemReferenceToObject(hash: Hasher, o: Node, key: seq<char>, item: Node): (r: Node)
    requires NoNul(key)
    ensures |r.children| == |o.children| + 1
    ensures r == o.(children := o.children + [r.children[|o.children|]])
    ensures var ref := r.children[|o.children|];
            && ref == Named(hash, key, Reference(item))
            && ref.isRef && ref.name == Some(key) && ref.nameHash == hash(key)
            && ref.(isRef := item.isRef, nameHash := item.nameHash, name := item.name) == item
  {
    AddItemToObject(hash, o, key, Some(Reference(item)))
  }

  /** `sJSONdetachItemFromArray`: unlink child `which` (negative counts as
      0) and return it with the shortened container; past the end nothing
      changes and nothing is returned. */
  function DetachItemFromArray(a: Node, which: int): (r: (Node, Option<Node>))
    ensures r.1.Some? <==> Clamp(which) < |a.children|
    ensures r.1.None? ==> r.0 == a
    ensures r.1.Some? ==> (r.1.value == a.children[Clamp(which)]
                           && r.0.children == a.children[..Clamp(which)] + a.children[Clamp(which) + 1..])
    ensures r.0 == a.(children := r.0.children)
  {
    var w := Clamp(which);
    if w < |a.children| then (a.(children := a.children[..w] + a.children[w + 1..]), Some(a.children[w]))
    else (a, None)
  }

  /** `sJSONdeleteItemFromArray`: detach, then delete what was detached. */
  function DeleteItemFromArray(a: Node, which: int): (r: (Node, seq<Release>))
    ensures Clamp(which) < |a.children| ==> r.1 == DeleteNode(a.children[Clamp(which)])
    ensures Clamp(which) < |a.children| ==>
      r.0 == a.(children := a.children[..Clamp(which)] + a.children[Clamp(which) + 1..])
    ensures Clamp(which) >= |a.children| ==> r == (a, [])
    ensures |r.0.children| == (if Clamp(which) < |a.children| then |a.children| - 1 else |a.children|)
  {
    var d := DetachItemFromArray(a, which);
    (d.0, if d.1.Some? then DeleteNode(d.1.value) else [])
  }

  /** `sJSONdetachItemFromObject`: detach the first member whose hash is the
      key's hash. */
  function DetachItemFromObject(hash: Hasher, o: Node, key: seq<char>): (r: (Node, Option<Node>))
    requires NoNul(key)
    ensures r.1 == GetObjectItem(o, hash(key))
    ensures r.1.None? ==> r.0 == o
    ensures r.1.Some? ==> |r.0.children| == |o.children| - 1
    ensures r.1.Some? ==> var i := IndexOfHash(o, hash(key)).value;
      && r.1.value == o.children[i]
      && r.0 == o.(children := o.children[..i] + o.children[i + 1..])
  {
    match IndexOfHash(o, hash(key))
    case None => (o, None)
    case Some(i) => DetachItemFromArray(o, i)
  }

  /** `sJSONdeleteItemFromObject`: detach by key, then delete. */
  function DeleteItemFromObject(hash: Hasher, o: Node, key: seq<char>): (r: (Node, seq<Release>))
    requires NoNul(key)
    ensures GetObjectItem(o, hash(key)).None? ==> r == (o, [])
    ensures GetObjectItem(o, hash(key)).Some? ==> r.1 == DeleteNode(GetObjectItem(o, hash(key)).value)
    ensures GetObjectItem(o, hash(key)).Some? ==> var i := IndexOfHash(o, hash(key)).value;
      && |r.0.children| == |o.children| - 1
      && r.0 == o.(children := o.children[..i] + o.children[i + 1..])
  {
    var d := DetachItemFromObject(hash, o, key);
    (d.0, if d.1.Some? then DeleteNode(d.1.value) else [])
  }

  /** `sJSONreplaceItemInArray`: put `newitem` in the place of child
      `which` and delete the old child; past the end nothing changes. */
  function ReplaceItemInArray(a: Node, which: int, newitem: Node): (r: (Node, seq<Release>))
    ensures Clamp(which) >= |a.children| ==> r == (a, [])
    ensures Clamp(which) < |a.children| ==>
      && r.0.children == a.children[Clamp(which) := newitem]
      && r.1 == DeleteNode(a.children[Clamp(which)])
    ensures r.0 == a.(children := r.0.children)
  {
    var w := Clamp(which);
    if w < |a.children| then (a.(children := a.children[w := newitem]), DeleteNode(a.children[w]))
    else (a, [])
  }

  /** `sJSONreplaceItemInObject`: replace the first member with the key's
      hash by `newitem` under that key; without such a member nothing
      changes. */
  function ReplaceItemInObject(hash: Hasher, o: Node, key: seq<char>, newitem: Node): (r: (Node, seq<Release>))
    requires NoNul(key)
    ensures GetObjectItem(o, hash(key)).None? ==> r == (o, [])
    ensures GetObjectItem(o, hash(key)).Some? ==> |r.0.children| == |o.children|
    ensures GetObjectItem(o, hash(key)).Some? ==> var i := IndexOfHash(o, hash(key)).value;
      && r.0 == o.(children := o.children[i := Named(hash, key, newitem)])
      && r.1 == DeleteNode(o.children[i])
  {
    match IndexOfHash(o, hash(key))
    case None => (o, [])
    case Some(i) => ReplaceItemInArray(o, i, Named(hash, key, newitem))
  }

  // ---------------------------------------------------------------------
  // Lookups after edits.

  /** After an append, the size grows by one, the new item is the last one
      and every earlier index still finds what it found before. */
  lemma AddThenGet(a: Node, item: Node)
    ensures GetArraySize(AddItemToArray(a, Some(item))) == GetArraySize(a) + 1
    ensures GetArrayItem(AddItemToArray(a, Some(item)), GetArraySize(a)) == Some(item)
    ensures forall k :: 0 <= k < GetArraySize(a) ==> GetArrayItem(AddItemToArray(a, Some(item)), k) == GetArrayItem(a, k)
  {
  }

  /** The position of the first match in a chain is unchanged by appending,
      unless there was none: then it is the appended node, if that matches. */
  lemma {:induction false} FindAppend(chain: seq<Node>, x: Node, h: bv32)
    ensures ChainFind(chain + [x], h)
         == if ChainFind(chain, h).Some? then ChainFind(chain, h)
            else if x.nameHash == h then Some(|chain|) else None
  {
    if chain != [] {
      assert (chain + [x])[1..] == chain[1..] + [x];
      FindAppend(chain[1..], x, h);
    }
  }

  /** Looking a key up right after adding under it finds the new item exactly
      when no earlier member had the key's hash; otherwise the earlier member
      still shadows it. */
  lemma AddThenLookup(hash: Hasher, o: Node, key: seq<char>, item: Node)
    requires NoNul(key)
    ensures var o' := AddItemToObject(hash, o, key, Some(item));
            && (IndexOfHash(o', hash(key)) == Some(|o.children|) <==> GetObjectItem(o, hash(key)).None?)
            && GetObjectItem(o', hash(key))
               == if GetObjectItem(o, hash(key)).Some? then GetObjectItem(o, hash(key))
                  else Some(Named(hash, key, item))
  {
    FindAppend(o.children, Named(hash, key, item), hash(key));
  }

  /** The number of members whose stored hash is `h`. */
  function CountHash(chain: seq<Node>, h: bv32): nat
  {
    if chain == [] then 0 else (if chain[0].nameHash == h then 1 else 0) + CountHash(chain[1..], h)
  }

  lemma {:induction false} CountHashSplit(chain: seq<Node>, w: nat, h: bv32)
    requires w <= |chain|
    ensures CountHash(chain, h) == CountHash(chain[..w], h) + CountHash(chain[w..], h)
  {
    if w > 0 {
      assert chain[..w][1..] == chain[1..][..w - 1];
      assert chain[w..] == chain[1..][w - 1..];
      CountHashSplit(chain[1..], w - 1, h);
    } else {
      assert chain[..0] == [];
      assert chain[0..] == chain;
    }
  }

  lemma {:induction false} CountHashZero(chain: seq<Node>, h: bv32)
    ensures CountHash(chain, h) == 0 <==> forall k :: 0 <= k < |chain| ==> chain[k].nameHash != h
  {
    if chain != [] {
      CountHashZero(chain[1..], h);
      assert forall k :: 1 <= k < |chain| ==> chain[k] == chain[1..][k - 1];
    }
  }

  /** Removing a member with hash `h` lowers the count of `h` by one. */
  lemma CountWithout(cs: seq<Node>, w: nat, h: bv32)
    requires w < |cs| && cs[w].nameHash == h
    ensures CountHash(cs[..w] + cs[w + 1..], h) + 1 == CountHash(cs, h)
  {
    var rest := cs[..w] + cs[w + 1..];
    CountHashSplit(cs, w, h);
    CountHashSplit(cs[w..], 1, h);
    assert cs[w..][..1] == [cs[w]];
    assert cs[w..][1..] == cs[w + 1..];
    assert CountHash([cs[w]], h) == 1;
    CountHashSplit(rest, w, h);
    assert rest[..w] == cs[..w];
    assert rest[w..] == cs[w + 1..];
  }

  /** Detaching by key removes only the first match: the key disappears from
      the object exactly when it matched at most one member. */
  lemma DetachThenLookup(hash: Hasher, o: Node, key: seq<char>)
    requires NoNul(key)
    ensures var o' := DetachItemFromObject(hash, o, key).0;
            GetObjectItem(o', hash(key)).None? <==> CountHash(o.children, hash(key)) <= 1
  {
    var h := hash(key);
    match IndexOfHash(o, h)
    case None =>
      CountHashZero(o.children, h);
    case Some(w) =>
      var rest := o.children[..w] + o.children[w + 1..];
      assert DetachItemFromObject(hash, o, key).0.children == rest;
      CountWithout(o.children, w, h);
      CountHashZero(rest, h);
  }

  /** Replacing by key keeps the size and position: the first match is now
      the named new item, and every other member is unchanged. */
  lemma ReplaceThenLookup(hash: Hasher, o: Node, key: seq<char>, newitem: Node)
    requires NoNul(key)
    requires GetObjectItem(o, hash(key)).Some?
    ensures var o' := ReplaceItemInObject(hash, o, key, newitem).0;
            && IndexOfHash(o', hash(key)) == IndexOfHash(o, hash(key))
            && GetObjectItem(o', hash(key)) == Some(Named(hash, key, newitem))
            && forall k :: 0 <= k < |o.children| && k != IndexOfHash(o, hash(key)).value ==>
                 o'.children[k] == o.children[k]
  {
    var h := hash(key);
    var w := IndexOfHash(o, h).value;
    var o' := ReplaceItemInObject(hash, o, key, newitem).0;
    assert o'.children == o.children[w := Named(hash, key, newitem)];
    assert o'.children[w].nameHash == h;
  }

  /** Detaching the last item undoes an append. */
  lemma AddThenDetach(a: Node, item: Node)
    ensures DetachItemFromArray(AddItemToArray(a, Some(item)), GetArraySize(a)) == (a, Some(item))
  {
    var b := AddItemToArray(a, Some(item));
    assert b.children[..|a.children|] + b.children[|a.children| + 1..] == a.children;
  }

  /** Detaching a key that was new when it was added undoes the add: the
      object is as before and the detached item is the added one, named. */
  lemma AddThenDetachKey(hash: Hasher, o: Node, key: seq<char>, item: Node)
    requires NoNul(key) && GetObjectItem(o, hash(key)).None?
    ensures DetachItemFromObject(hash, AddItemToObject(hash, o, key, Some(item)), key)
         == (o, Some(Named(hash, key, item)))
  {
    AddThenLookup(hash, o, key, item);
    AddThenDetach(o, Named(hash, key, item));
  }

  /** Deleting the last item undoes an append and releases exactly what
      the item owns. */
  lemma AddThenDelete(a: Node, item: Node)
    ensures DeleteItemFromArray(AddItemToArray(a, Some(item)), GetArraySize(a)) == (a, DeleteNode(item))
  {
    AddThenDetach(a, item);
  }

  /** Deleting a key that was new when it was added gives the object back
      and releases the added item under its new name. */
  lemma AddThenDeleteKey(hash: Hasher, o: Node, key: seq<char>, item: Node)
    requires NoNul(key) && GetObjectItem(o, hash(key)).None?
    ensures DeleteItemFromObject(hash, AddItemToObject(hash, o, key, Some(item)), key)
         == (o, DeleteNode(Named(hash, key, item)))
  {
    AddThenDetachKey(hash, o, key, item);
  }

  /** Putting the old child back undoes a replacement, and the second
      replacement releases what the first one put in. */
  lemma ReplaceBack(a: Node, which: int, newitem: Node)
    requires Clamp(which) < |a.children|
    ensures var r := ReplaceItemInArray(a, which, newitem).0;
            ReplaceItemInArray(r, which, a.children[Clamp(which)]) == (a, DeleteNode(newitem))
  {
    var w := Clamp(which);
    assert a.children[w := newitem][w := a.children[w]] == a.children;
  }

  // ---------------------------------------------------------------------
  // Ownership at teardown.

  lemma MultisetSplit(x: seq<Release>, y: seq<Release>, z: seq<Release>)
    ensures multiset(x + y + z) == multiset(x + z) + multiset(y)
  {
    assert x + y + z == x + (y + z);
    assert x + z + y == x + (z + y);
  }

  /** Deleting a container after adding a reference to `item` releases one
      more node record and nothing else: neither the children nor the
      string of `item` are freed through the reference. */
  lemma DeleteAfterReference(a: Node, item: Node)
    requires !a.isRef
    ensures multiset(DeleteNode(AddItemReferenceToArray(a, item)))
         == multiset(DeleteNode(a)) + multiset{NodeRecord}
  {
    var ref := Reference(item);
    var a' := AddItemReferenceToArray(a, item);
    assert a'.children == a.children + [ref];
    DeleteChainAppend(a.children, ref);
    DeleteReference(item, None);
    DeleteAppended(a, ref, [NodeRecord]);
  }

  /** The same for a reference added to an object under a key: the
      reference's copy of the key is released with it. */
  lemma DeleteAfterObjectReference(hash: Hasher, o: Node, key: seq<char>, item: Node)
    requires !o.isRef && NoNul(key)
    ensures multiset(DeleteNode(AddItemReferenceToObject(hash, o, key, item)))
         == multiset(DeleteNode(o)) + multiset{NameBuffer(key), NodeRecord}
  {
    var ref := Named(hash, key, Reference(item));
    assert ref == Reference(item).(name := Some(key), nameHash := hash(key));
    DeleteReference(item, Some(key));
    assert DeleteNode(ref) == [NameBuffer(key), NodeRecord];
    DeleteAppended(o, ref, [NameBuffer(key), NodeRecord]);
  }

  /** Deleting an owning container with one more child releases what that
      child releases on top of what the container released before. */
  lemma DeleteAppended(a: Node, x: Node, released: seq<Release>)
    requires !a.isRef && DeleteNode(x) == released
    ensures multiset(DeleteNode(a.(children := a.children + [x])))
         == multiset(DeleteNode(a)) + multiset(released)
  {
    var a' := a.(children := a.children + [x]);
    OwnsExactlyNonReferences(a);
    OwnsExactlyNonReferences(a');
    DeleteChainAppend(a.children, x);
    assert OwnTail(a') == OwnTail(a);
    assert DeleteNode(a') == DeleteChain(a.children) + released + OwnTail(a);
    if |a.children| > 0 {
      assert DeleteNode(a) == DeleteChain(a.children) + OwnTail(a);
      MultisetSplit(DeleteChain(a.children), released, OwnTail(a));
    } else {
      assert DeleteChain(a.children) == [];
      assert DeleteNode(a) == OwnTail(a);
    }
  }
}

=== FILE: base.dfy ===
/** Shared vocabulary of the model: optional values, parse results that carry
    a cursor or an error position, and a few facts about text.

    A C string `const char *` is modelled as the `seq<char>` of the bytes
    before its terminator; index `|s|` plays the role of the NUL byte. */
module Base {

  /** The null-or-pointer return of the C API. */
  datatype Option<+T> = None | Some(value: T)

  /** The outcome of a parse step: the value built and the cursor just past
      the consumed text, or the position the global error pointer would hold. */
  datatype Res<+T> = Ok(value: T, next: nat) | Err(pos: nat)

  /** `r` succeeded with the value `v` and the cursor at `n`. */
  predicate Yields<T(==)>(r: Res<T>, v: T, n: nat) { r.Ok? && r.value == v && r.next == n }

  predicate IsDigit(c: char) { '0' <= c <= '9' }

  predicate NoNul(s: seq<char>) { forall k :: 0 <= k < |s| ==> s[k] != '\0' }

  /** `p` occurs in `s` starting at position `i`. */
  predicate At(s: seq<char>, i: nat, p: seq<char>) {
    i + |p| <= |s| && s[i..i + |p|] == p
  }

  lemma AtConcat(s: seq<char>, i: nat, p: seq<char>, q: seq<char>)
    requires At(s, i, p + q)
    ensures At(s, i, p) && At(s, i + |p|, q)
  {
    assert s[i..i + |p|] == s[i..i + |p| + |q|][..|p|];
    assert s[i + |p|..i + |p| + |q|] == s[i..i + |p| + |q|][|p|..];
  }

  /** `AtConcat` with the position of the second part named by the caller. */
  lemma AtSplit(s: seq<char>, i: nat, p: seq<char>, q: seq<char>, j: nat)
    requires At(s, i, p + q) && j == i + |p|
    ensures At(s, i, p) && At(s, j, q)
  {
    AtConcat(s, i, p, q);
  }

  /** A non-empty sequence is its head followed by its tail. */
  lemma HeadTail<T>(xs: seq<T>)
    requires xs != []
    ensures [xs[0]] + xs[1..] == xs
  {
  }

  lemma AtIndex(s: seq<char>, i: nat, p: seq<char>, k: nat)
    requires At(s, i, p) && k < |p|
    ensures s[i + k] == p[k]
  {
    assert s[i..i + |p|][k] == s[i + k];
  }

  lemma AtConcat3(s: seq<char>, i: nat, p: seq<char>, q: seq<char>, r: seq<char>)
    requires At(s, i, p + q + r)
    ensures At(s, i, p) && At(s, i + |p|, q) && At(s, i + |p| + |q|, r)
  {
    AtConcat(s, i, p + q, r);
    AtConcat(s, i, p, q);
  }

  lemma NoNulConcat(a: seq<char>, b: seq<char>)
    ensures NoNul(a + b) <==> NoNul(a) && NoNul(b)
  {
    if NoNul(a + b) {
      assert forall k :: 0 <= k < |a| ==> a[k] == (a + b)[k];
      assert forall k :: 0 <= k < |b| ==> b[k] == (a + b)[|a| + k];
    }
  }

  /** The text a C reader sees in a buffer: everything before its first NUL. */
  function CString(buf: seq<char>): (r: seq<char>)
    ensures |r| <= |buf| && NoNul(r)
    ensures r == buf[..|r|]
    ensures |r| < |buf| ==> buf[|r|] == '\0'
  {
    if |buf| == 0 then []
    else if buf[0] == '\0' then []
    else [buf[0]] + CString(buf[1..])
  }

  lemma CStringOfNoNul(s: seq<char>)
    requires NoNul(s)
    ensures CString(s) == s
  {
  }
}

=== FILE: numbers.dfy ===
/** The number lexer `parse_number` (sjson.cpp, lines 109-122), as far as it
    is not floating point: how far the cursor moves and the exact triple
    (sign, integer mantissa, decimal exponent `scale + subscale *
    signsubscale`) that line 123 turns into a double.

    The lexer's quirks are kept: a leading `0` is stepped over and any
    digits 1-9 after it are still read; a `.` consumes the next character
    as a digit whatever it is; a lone `-` is zero. A `.` as the very last
    character reads the terminator as the digit `0 - '0'` and stops at the
    end of the input, where the C code would go on reading past it. */
module Numbers {
  import opened Base
  import opened Tree

  /** `*num - '0'`: the digit value of any character, digit or not. */
  function DigitValue(c: char): int { c as int - '0' as int }

  /** The value of a run of decimal digits, most significant first. */
  function DigitsValue(d: seq<char>): int
  {
    if |d| == 0 then 0 else DigitsValue(d[..|d| - 1]) * 10 + DigitValue(d[|d| - 1])
  }

  /** The end of the maximal run of decimal digits from `j`. */
  function DigitsEnd(s: seq<char>, j: nat): (r: nat)
    requires j <= |s|
    ensures j <= r <= |s|
    ensures forall k :: j <= k < r ==> IsDigit(s[k])
    ensures r < |s| ==> !IsDigit(s[r])
    decreases |s| - j
  {
    if j < |s| && IsDigit(s[j]) then DigitsEnd(s, j + 1) else j
  }

  /** The digit loop `n = n * 10 + (*num++ - '0')` from position `j` with
      accumulator `acc`, run over the maximal digit run. */
  function AccumulateDigits(s: seq<char>, j: nat, acc: int): int
    requires j <= |s|
    decreases |s| - j
  {
    if j < |s| && IsDigit(s[j]) then AccumulateDigits(s, j + 1, acc * 10 + DigitValue(s[j])) else acc
  }

  /** The loop shifts the accumulator left by the run's length and adds the
      run's value. */
  lemma {:induction false} AccumulateDigitsValue(s: seq<char>, j: nat, acc: int)
    requires j <= |s|
    ensures AccumulateDigits(s, j, acc)
         == acc * Pow10(DigitsEnd(s, j) - j) + DigitsValue(s[j..DigitsEnd(s, j)])
    decreases |s| - j
  {
    if j < |s| && IsDigit(s[j]) {
      var d := DigitValue(s[j]);
      var e := DigitsEnd(s, j);
      assert e == DigitsEnd(s, j + 1);
      var p := Pow10(e - j - 1);
      AccumulateDigitsValue(s, j + 1, acc * 10 + d);
      DigitsValueCons(s, j, e);
      assert Pow10(e - j) == 10 * p;
      ShiftDigit(acc, d, p);
    } else {
      assert s[j..j] == [];
    }
  }

  lemma ShiftDigit(acc: int, d: int, p: int)
    ensures (acc * 10 + d) * p == acc * (10 * p) + d * p
  {
  }

  function Pow10(n: nat): (r: nat)
    ensures r >= 1
  {
    if n == 0 then 1 else 10 * Pow10(n - 1)
  }

  /** Peeling the leading digit off a run. */
  lemma {:induction false} DigitsValueCons(s: seq<char>, j: nat, e: nat)
    requires j < e <= |s|
    ensures DigitsValue(s[j..e]) == DigitValue(s[j]) * Pow10(e - j - 1) + DigitsValue(s[j + 1..e])
    decreases e - j
  {
    if e == j + 1 {
      assert s[j..e][..0] == [];
      assert s[j + 1..e] == [];
    } else {
      DigitsValueCons(s, j, e - 1);
      assert s[j..e][..e - j - 1] == s[j..e - 1];
      assert s[j + 1..e][..e - j - 2] == s[j + 1..e - 1];
      ScaleSum(DigitValue(s[j]), Pow10(e - j - 2), DigitsValue(s[j + 1..e - 1]));
    }
  }

  lemma ScaleSum(d: int, p: int, b: int)
    ensures (d * p + b) * 10 == d * (10 * p) + b * 10
  {
  }

  /** The integer part from `b`, read only when it starts with 1-9: its
      value and the position after it. It runs over the whole digit run,
      and its value is the run's. */
  function LexInteger(s: seq<char>, b: nat): (r: (int, nat))
    requires b <= |s|
    ensures b <= r.1 <= |s|
    ensures r.1 > b <==> b < |s| && '1' <= s[b] <= '9'
    ensures forall k :: b <= k < r.1 ==> IsDigit(s[k])
    ensures b < r.1 < |s| ==> !IsDigit(s[r.1])
    ensures r.0 == DigitsValue(s[b..r.1])
  {
    if b < |s| && '1' <= s[b] <= '9' then
      AccumulateDigitsValue(s, b, 0);
      (AccumulateDigits(s, b, 0), DigitsEnd(s, b))
    else
      assert s[b..b] == [];
      (0, b)
  }

  /** The fractional part at `c`, if `c` holds a `.`: the mantissa extended
      by its digits, the (non-positive) scale and the position after it.
      The character after `.` is taken as a digit unconditionally. */
  function LexFraction(s: seq<char>, c: nat, m: int): (r: (int, int, nat))
    requires c <= |s|
    ensures c <= r.2 <= |s|
  {
    if c < |s| && s[c] == '.' then
      if c + 1 == |s| then (m * 10 + DigitValue('\0'), -1, |s|)
      else
        var f := DigitsEnd(s, c + 2);
        (AccumulateDigits(s, c + 2, m * 10 + DigitValue(s[c + 1])), -(f - c - 1), f)
    else (m, 0, c)
  }

  /** The exponent at `d`, if `d` holds `e` or `E`: its signed value and the
      position after it. */
  function LexExponent(s: seq<char>, d: nat): (r: (int, nat))
    requires d <= |s|
    ensures d <= r.1 <= |s|
  {
    if d < |s| && (s[d] == 'e' || s[d] == 'E') then
      var sgn := if d + 1 < |s| && s[d + 1] == '-' then -1 else 1;
      var x := if d + 1 < |s| && (s[d + 1] == '+' || s[d + 1] == '-') then d + 2 else d + 1;
      (sgn * AccumulateDigits(s, x, 0), DigitsEnd(s, x))
    else (0, d)
  }

  /** The bytes the fraction loop reads as digits after the `.` at `c`: the
      next byte whatever it is, then the run of digits after that. When the
      `.` ends the input, the terminator is that one byte. */
  function FractionDigits(s: seq<char>, c: nat): (f: seq<char>)
    requires c < |s|
    ensures |f| >= 1
  {
    if c + 1 == |s| then ['\0'] else s[c + 1..DigitsEnd(s, c + 2)]
  }

  /** The value of digits `y` written after digits `x`. */
  lemma {:induction false} DigitsValueAppend(x: seq<char>, y: seq<char>)
    ensures DigitsValue(x + y) == DigitsValue(x) * Pow10(|y|) + DigitsValue(y)
    decreases |y|
  {
    if |y| == 0 {
      assert x + y == x;
    } else {
      var y' := y[..|y| - 1];
      DigitsValueAppend(x, y');
      assert (x + y)[..|x + y| - 1] == x + y';
      assert (x + y)[|x + y| - 1] == y[|y| - 1];
      ScaleSum(DigitsValue(x), Pow10(|y'|), DigitsValue(y'));
    }
  }

  /** Without a `.` the fraction changes nothing. After a `.`, each byte it
      reads is one more decimal place: the mantissa is shifted by their
      number and extended by their value, and the scale is minus their
      number. */
  lemma LexFractionValue(s: seq<char>, c: nat, m: int)
    requires c <= |s|
    ensures !(c < |s| && s[c] == '.') ==> LexFraction(s, c, m) == (m, 0, c)
    ensures c < |s| && s[c] == '.' ==>
      var f := FractionDigits(s, c);
      && LexFraction(s, c, m).0 == m * Pow10(|f|) + DigitsValue(f)
      && LexFraction(s, c, m).1 == -|f|
      && LexFraction(s, c, m).2 == (if c + 1 == |s| then |s| else c + 1 + |f|)
  {
    if c < |s| && s[c] == '.' {
      var f := FractionDigits(s, c);
      if c + 1 == |s| {
        assert f[..0] == [];
      } else {
        FractionStep(s, c, m);
      }
    }
  }

  lemma FractionStep(s: seq<char>, c: nat, m: int)
    requires c + 1 < |s| && s[c] == '.'
    ensures LexFraction(s, c, m).0 == m * Pow10(|FractionDigits(s, c)|) + DigitsValue(FractionDigits(s, c))
  {
    var e := DigitsEnd(s, c + 2);
    var d := DigitValue(s[c + 1]);
    var p := Pow10(e - c - 2);
    AccumulateDigitsValue(s, c + 2, m * 10 + d);
    DigitsValueCons(s, c + 1, e);
    assert Pow10(e - c - 1) == 10 * p;
    ShiftDigit(m, d, p);
  }

  /** Without `e`/`E` there is no exponent. After it, an optional sign and
      the digit run follow; the exponent is the run's value, negated after
      `-`. */
  lemma LexExponentValue(s: seq<char>, d: nat)
    requires d <= |s|
    ensures !(d < |s| && (s[d] == 'e' || s[d] == 'E')) ==> LexExponent(s, d) == (0, d)
    ensures d < |s| && (s[d] == 'e' || s[d] == 'E') ==>
      var signed := d + 1 < |s| && (s[d + 1] == '+' || s[d + 1] == '-');
      var x := if signed then d + 2 else d + 1;
      && LexExponent(s, d).1 == DigitsEnd(s, x)
      && LexExponent(s, d).0 == (if signed && s[d + 1] == '-' then -1 else 1) * DigitsValue(s[x..DigitsEnd(s, x)])
  {
    if d < |s| && (s[d] == 'e' || s[d] == 'E') {
      var signed := d + 1 < |s| && (s[d + 1] == '+' || s[d + 1] == '-');
      var x := if signed then d + 2 else d + 1;
      AccumulateDigitsValue(s, x, 0);
    }
  }

  /** Where the integer digits may start: past a leading `-` and then past
      one leading `0`. */
  function IntegerStart(s: seq<char>, i: nat): (b: nat)
    requires i <= |s|
    ensures i <= b <= |s|
  {
    var a := if i < |s| && s[i] == '-' then i + 1 else i;
    if a < |s| && s[a] == '0' then a + 1 else a
  }

  /** The bytes the fraction at `w` reads as digits, none without a `.`. */
  function FractionAt(s: seq<char>, w: nat): seq<char>
    requires w <= |s|
  {
    if w < |s| && s[w] == '.' then FractionDigits(s, w) else []
  }

  /** Where the fraction at `w` ends. */
  function FractionEnd(s: seq<char>, w: nat): nat
    requires w <= |s|
  {
    if !(w < |s| && s[w] == '.') then w else if w + 1 == |s| then |s| else w + 1 + |FractionDigits(s, w)|
  }

  /** The fraction after the integer digits `s[b..w]` extends their value
      to that of the integer digits followed by the fraction's bytes. */
  lemma FractionTriple(s: seq<char>, b: nat, w: nat, m: int)
    requires b <= w <= |s| && m == DigitsValue(s[b..w])
    ensures LexFraction(s, w, m) == (DigitsValue(s[b..w] + FractionAt(s, w)), -|FractionAt(s, w)|, FractionEnd(s, w))
  {
    LexFractionValue(s, w, m);
    DigitsValueAppend(s[b..w], FractionAt(s, w));
    assert s[b..w] + [] == s[b..w];
  }

  /** The triple `parse_number` accumulates and the cursor it returns, for
      a literal starting at `i`; `LexNumberTriple` states its value. */
  function LexNumber(s: seq<char>, i: nat): (r: (Num, nat))
    requires i <= |s|
    ensures i <= r.1 <= |s|
    ensures i < |s| && (s[i] == '-' || IsDigit(s[i])) ==> i < r.1
    ensures r.0.negative <==> (i < |s| && s[i] == '-')
  {
    var neg := i < |s| && s[i] == '-';
    var whole := LexInteger(s, IntegerStart(s, i));
    var frac := LexFraction(s, whole.1, whole.0);
    var exp := LexExponent(s, frac.2);
    (Num(neg, frac.0, frac.1 + exp.0), exp.1)
  }

  /** The whole triple. The sign is that of a leading `-`. Past the sign
      and one leading `0`, the mantissa is the value of the integer digits
      followed by every byte the fraction reads, and the exponent is minus
      the number of those fraction bytes plus the signed exponent. The
      cursor stops after the exponent digits, and moves on from a `-` or a
      digit. */
  lemma LexNumberTriple(s: seq<char>, i: nat)
    requires i <= |s|
    ensures var b := IntegerStart(s, i);
            var w := LexInteger(s, b).1;
            var d := FractionEnd(s, w);
            && LexNumber(s, i).0
               == Num(i < |s| && s[i] == '-', DigitsValue(s[b..w] + FractionAt(s, w)), -|FractionAt(s, w)| + LexExponent(s, d).0)
            && LexNumber(s, i).1 == LexExponent(s, d).1
            && i <= LexNumber(s, i).1 <= |s|
            && (i < |s| && (s[i] == '-' || IsDigit(s[i])) ==> i < LexNumber(s, i).1)
  {
    var b := IntegerStart(s, i);
    var whole := LexInteger(s, b);
    FractionTriple(s, b, whole.1, whole.0);
  }

  /** A `-` that nothing follows is the number zero, negative, one byte
      long. */
  lemma LoneMinus(s: seq<char>, i: nat)
    requires i < |s| && s[i] == '-'
    requires i + 1 < |s| ==> !ContinuesNumber(s[i + 1])
    ensures LexNumber(s, i) == (Num(true, 0, 0), i + 1)
  {
    LexNumberTriple(s, i);
    assert s[i + 1..i + 1] == [];
  }

  /** A leading `0` is stepped over and the digits 1-9 after it are still
      read: `012` lexes as `12` does, to the same end. */
  lemma LeadingZeroDigits(s: seq<char>, i: nat)
    requires i + 1 < |s| && s[i] == '0' && '1' <= s[i + 1] <= '9'
    ensures LexNumber(s, i) == LexNumber(s, i + 1)
  {
    assert IntegerStart(s, i) == i + 1 == IntegerStart(s, i + 1);
  }

  /** A second `0` after a leading `0` is not read: `00` is the number zero
      one byte long. */
  lemma ZeroThenZero(s: seq<char>, i: nat)
    requires i + 1 < |s| && s[i] == '0' && s[i + 1] == '0'
    ensures LexNumber(s, i) == (Num(false, 0, 0), i + 1)
  {
    LexNumberTriple(s, i);
    assert s[i + 1..i + 1] == [];
  }

  /** The byte after a `.` is read as a digit whatever it is: `1.x` is
      `(10 + ('x' - '0')) * 10^-1`. */
  lemma DotTakesNextByte(s: seq<char>, i: nat)
    requires i + 2 < |s| && '1' <= s[i] <= '9' && s[i + 1] == '.'
    requires i + 3 < |s| ==> !ContinuesNumber(s[i + 3])
    ensures LexNumber(s, i) == (Num(false, DigitValue(s[i]) * 10 + DigitValue(s[i + 2]), -1), i + 3)
  {
    assert IntegerStart(s, i) == i;
    DotIntegerPart(s, i);
    DotFractionPart(s, i);
    assert LexExponent(s, i + 3) == (0, i + 3);
  }

  lemma DotIntegerPart(s: seq<char>, i: nat)
    requires i + 1 < |s| && '1' <= s[i] <= '9' && s[i + 1] == '.'
    ensures LexInteger(s, i) == (DigitValue(s[i]), i + 1)
  {
    assert DigitsEnd(s, i + 1) == i + 1 && DigitsEnd(s, i) == i + 1;
    assert s[i..i + 1] == [s[i]] && [s[i]][..0] == [];
    assert DigitsValue([s[i]]) == DigitValue(s[i]);
  }

  lemma DotFractionPart(s: seq<char>, i: nat)
    requires i + 2 < |s| && s[i + 1] == '.'
    requires i + 3 < |s| ==> !IsDigit(s[i + 3])
    ensures LexFraction(s, i + 1, DigitValue(s[i])) == (DigitValue(s[i]) * 10 + DigitValue(s[i + 2]), -1, i + 3)
  {
    assert DigitsEnd(s, i + 3) == i + 3;
    assert s[i + 3..i + 3] == [];
  }

  /** A worked literal: a lone `-`. */
  lemma LoneMinusExample()
    ensures LexNumber("-", 0) == (Num(true, 0, 0), 1)
  {
    LoneMinus("-", 0);
  }

  /** A worked literal: digits after a leading `0` are read. */
  lemma LeadingZeroExample()
    ensures LexNumber("012]", 0) == (Num(false, 12, 0), 3)
  {
    var t := "012]";
    assert IntegerStart(t, 0) == 1;
    LeadingZeroParts();
  }

  lemma LeadingZeroParts()
    ensures LexInteger("012]", 1) == (12, 3)
    ensures LexFraction("012]", 3, 12) == (12, 0, 3)
    ensures LexExponent("012]", 3) == (0, 3)
  {
    var t := "012]";
    assert DigitsEnd(t, 3) == 3 && DigitsEnd(t, 2) == 3 && DigitsEnd(t, 1) == 3;
    assert t[1..3] == "12";
    assert DigitsValue("12") == 12 by { assert "12"[..1] == "1" && "1"[..0] == []; }
  }

  /** A worked literal with every part. */
  lemma LexFullExample()
    ensures LexNumber("1.25e-3,", 0) == (Num(false, 125, -5), 7)
  {
    var s := "1.25e-3,";
    assert IntegerStart(s, 0) == 0;
    FullIntegerPart();
    FullFractionPart();
    FullExponentPart();
  }

  lemma FullIntegerPart()
    ensures LexInteger("1.25e-3,", 0) == (1, 1)
  {
    var s := "1.25e-3,";
    assert DigitsEnd(s, 1) == 1;
    assert s[0..1] == "1" && "1"[..0] == [];
  }

  lemma FullFractionPart()
    ensures LexFraction("1.25e-3,", 1, 1) == (125, -2, 4)
  {
    var s := "1.25e-3,";
    LexFractionValue(s, 1, 1);
    assert DigitsEnd(s, 4) == 4 && DigitsEnd(s, 3) == 4;
    assert FractionDigits(s, 1) == "25";
    assert DigitsValue("25") == 25 by { assert "25"[..1] == "2" && "2"[..0] == []; }
  }

  lemma FullExponentPart()
    ensures LexExponent("1.25e-3,", 4) == (-3, 7)
  {
    var s := "1.25e-3,";
    assert DigitsEnd(s, 7) == 7 && DigitsEnd(s, 6) == 7;
    AccumulateDigitsValue(s, 6, 0);
    assert s[6..7] == "3" && "3"[..0] == [];
  }

  /** The decimal text `%d` prints for a non-negative integer. */
  function DecimalText(n: nat): (t: seq<char>)
    ensures |t| >= 1 && forall k :: 0 <= k < |t| ==> IsDigit(t[k])
    ensures n > 0 ==> '1' <= t[0] <= '9'
    ensures n == 0 ==> t == ['0']
  {
    if n < 10 then [(n + '0' as int) as char]
    else DecimalText(n / 10) + [(n % 10 + '0' as int) as char]
  }

  lemma {:induction false} DecimalTextValue(n: nat)
    ensures DigitsValue(DecimalText(n)) == n
  {
    if n >= 10 {
      DecimalTextValue(n / 10);
      var t := DecimalText(n);
      assert t[..|t| - 1] == DecimalText(n / 10);
    } else {
      assert DecimalText(n)[..0] == [];
    }
  }

  /** A character that would extend a number literal after its digits. */
  predicate ContinuesNumber(c: char) { IsDigit(c) || c == '.' || c == 'e' || c == 'E' }

  /** `%d` of a signed integer given as sign and magnitude. */
  function SignedText(negative: bool, n: nat): seq<char>
  {
    (if negative then ['-'] else []) + DecimalText(n)
  }

  /** The lexer reads the `%d` text of an integer back exactly: mantissa the
      absolute value, exponent 0, and the cursor just past the text. */
  lemma LexDecimal(s: seq<char>, i: nat, negative: bool, n: nat)
    requires negative ==> n > 0
    requires At(s, i, SignedText(negative, n))
    requires i + |SignedText(negative, n)| < |s| ==> !ContinuesNumber(s[i + |SignedText(negative, n)|])
    ensures LexNumber(s, i) == (Num(negative, n, 0), i + |SignedText(negative, n)|)
  {
    var sign: seq<char> := if negative then ['-'] else [];
    var e := i + |SignedText(negative, n)|;
    AtConcat(s, i, sign, DecimalText(n));
    if negative {
      AtIndex(s, i, sign, 0);
    } else {
      AtIndex(s, i, DecimalText(n), 0);
    }
    var a := i + |sign|;
    LexUnsigned(s, a, n, e);
    assert a == (if i < |s| && s[i] == '-' then i + 1 else i);
    assert LexFraction(s, e, n) == (n, 0, e);
    assert LexExponent(s, e) == (0, e);
  }

  lemma LexUnsigned(s: seq<char>, a: nat, n: nat, e: nat)
    requires At(s, a, DecimalText(n)) && e == a + |DecimalText(n)|
    requires e < |s| ==> !ContinuesNumber(s[e])
    ensures a < |s| && (s[a] == '0' <==> n == 0)
    ensures LexInteger(s, if s[a] == '0' then a + 1 else a) == (n, e)
  {
    var t := DecimalText(n);
    AtIndex(s, a, t, 0);
    if n > 0 {
      DigitRun(s, a, t, e);
      DecimalTextValue(n);
      AccumulateRun(s, a, t, e);
    }
  }

  /** The digit loop from zero over a whole run computes the run's value. */
  lemma AccumulateRun(s: seq<char>, a: nat, t: seq<char>, e: nat)
    requires a <= e <= |s| && DigitsEnd(s, a) == e && s[a..e] == t
    ensures AccumulateDigits(s, a, 0) == DigitsValue(t)
  {
    AccumulateDigitsValue(s, a, 0);
  }

  /** A run of digits at `a` that nothing extends ends at `e`. */
  lemma DigitRun(s: seq<char>, a: nat, t: seq<char>, e: nat)
    requires At(s, a, t) && e == a + |t|
    requires forall k :: 0 <= k < |t| ==> IsDigit(t[k])
    requires e < |s| ==> !IsDigit(s[e])
    ensures e <= |s| && DigitsEnd(s, a) == e && s[a..e] == t
  {
    forall k | a <= k < e
      ensures IsDigit(s[k])
    {
      AtIndex(s, a, t, k - a);
    }
    DigitsEndRun(s, a, e);
  }

  lemma {:induction false} DigitsEndRun(s: seq<char>, j: nat, e: nat)
    requires j <= e <= |s|
    requires forall k :: j <= k < e ==> IsDigit(s[k])
    requires e < |s| ==> !IsDigit(s[e])
    ensures DigitsEnd(s, j) == e
    decreases e - j
  {
    if j < e {
      DigitsEndRun(s, j + 1, e);
    }
  }
}

=== FILE: parse_facts.dfy ===
/** Consequences of the parser's definitions that the relaxed grammar
    promises: where the array loop fails, what a member takes from its key,
    and how a document without an opening bracket is read. */
module ParseFacts {
  import opened Base
  import opened Tree
  import opened Skipper
  import opened Strings
  import opened Numbers
  import opened Parser

  /** `[` followed only by blanks and comments before `]` is an array with
      no children (sjson.cpp, lines 434-436). */
  lemma EmptyArray(hash: Hasher, s: seq<char>, i: nat)
    requires i < |s| && s[i] == '['
    requires Skip(s, i + 1) < |s| && s[Skip(s, i + 1)] == ']'
    ensures ParseArray(hash, s, i) == Ok(NewItem.(kind := Array), Skip(s, i + 1) + 1)
  {
  }

  /** A comma that is not followed by a value fails at the first byte after
      it: this is how both a doubled comma and a trailing comma before `]`
      are rejected. */
  lemma CommaWithoutValue(hash: Hasher, s: seq<char>, i: nat)
    requires i < |s| && s[i] == ','
    requires !StartsValue(s, Skip(s, i + 1))
    ensures ParseElements(hash, s, i) == Err(Skip(s, i + 1))
  {
  }

  /** An array still open at the end of the input fails there. */
  lemma UnclosedArray(hash: Hasher, s: seq<char>)
    ensures ParseElements(hash, s, |s|) == Err(|s|)
  {
    assert Skip(s, |s|) == |s|;
    assert !StartsValue(s, |s|);
  }

  /** An element list succeeds only at a closing bracket, so a document
      `[` ... that runs out never yields an array. */
  lemma ArrayNeedsBracket(hash: Hasher, s: seq<char>, i: nat)
    requires i <= |s|
    requires ParseArray(hash, s, i).Ok?
    ensures s[i] == '[' && s[ParseArray(hash, s, i).next - 1] == ']'
  {
  }

  /** The keywords are matched as prefixes, before anything else and with
      no word boundary, so `nullx` reads as `null` and stops before `x`. */
  lemma KeywordPrefix(hash: Hasher, s: seq<char>, i: nat)
    requires i <= |s|
    ensures At(s, i, "null") ==> ParseValue(hash, s, i) == Ok(NewItem.(kind := Null), i + 4)
    ensures At(s, i, "false") ==> ParseValue(hash, s, i) == Ok(NewItem.(kind := False), i + 5)
    ensures At(s, i, "true") ==> ParseValue(hash, s, i) == Ok(NewItem.(kind := True, valueInt := 1), i + 4)
  {
    KeywordHead(s, i);
  }

  /** `nullx` is `null` followed by a stray `x`, which then fails the
      array it stands in. */
  lemma KeywordWithoutBoundary(hash: Hasher)
    ensures ParseValue(hash, "nullx", 0) == Ok(NewItem.(kind := Null), 4)
    ensures ParseArray(hash, "[nullx]", 0) == Err(5)
  {
    var s := "[nullx]";
    assert At(s, 1, "null");
    assert Skip(s, 1) == 1 && Skip(s, 5) == 5;
    assert !StartsValue(s, 5);
  }

  /** A first element that fails makes the whole array fail at the
      element's own error position: the failure reaches the caller. */
  lemma FirstElementFails(hash: Hasher, s: seq<char>, i: nat)
    requires i < |s| && s[i] == '['
    requires var j := Skip(s, i + 1); !(j < |s| && s[j] == ']') && ParseValue(hash, s, j).Err?
    ensures ParseArray(hash, s, i) == Err(ParseValue(hash, s, Skip(s, i + 1)).pos)
  {
    SkipIdempotent(s, i + 1);
  }

  /** On `[x]` the element `x` fails at offset 1, and the C code passes
      that failure, a null cursor, straight to `skip` (line 442), which reads
      through it; the model's array reports the failure at offset 1. */
  lemma BadElementFaults(hash: Hasher)
    ensures ParseValue(hash, "[x]", 1) == Err(1)
    ensures SkipAsWritten("[x]", NullCursor) == Faults
    ensures ParseArray(hash, "[x]", 0) == Err(1)
  {
    var s := "[x]";
    assert Skip(s, 1) == 1;
    assert !StartsValue(s, 1);
    FirstElementFails(hash, s, 0);
  }

  /** A member whose key cannot be read fails where the key reader failed;
      for a byte that starts neither a quoted key nor a bareword that is the
      key's own position. */
  lemma MemberKeyError(hash: Hasher, s: seq<char>, i: nat)
    requires i <= |s|
    requires ParseKey(s, i).Err?
    ensures ParseMember(hash, s, i) == Err(ParseKey(s, i).pos)
    ensures i == |s| || (s[i] != '"' && !IsIdentStart(s[i])) ==> ParseMember(hash, s, i) == Err(i)
  {
  }

  /** A key must be followed, after blanks and comments, by `:` or `=`;
      otherwise the member fails at the byte found there. */
  lemma MemberNeedsSeparator(hash: Hasher, s: seq<char>, i: nat)
    requires i <= |s|
    requires ParseKey(s, i).Ok?
    requires !IsSeparatorAt(s, Skip(s, ParseKey(s, i).next))
    ensures ParseMember(hash, s, i) == Err(Skip(s, ParseKey(s, i).next))
  {
  }

  /** A parsed member carries its key as name and the key's hash, and is
      otherwise the value parsed after the separator. */
  lemma MemberNamed(hash: Hasher, s: seq<char>, i: nat)
    requires i <= |s|
    requires ParseMember(hash, s, i).Ok?
    ensures ParseKey(s, i).Ok?
    ensures var key := ParseKey(s, i).value;
            var j := Skip(s, ParseKey(s, i).next);
            var m := ParseMember(hash, s, i);
            && IsSeparatorAt(s, j)
            && Yields(ParseValue(hash, s, Skip(s, j + 1)), m.value.(nameHash := 0, name := None), m.next)
            && m.value.name == Some(key) && m.value.nameHash == hash(key)
  {
    MemberOk(hash, s, i);
  }

  /** A member that parses has a key followed by a separator. */
  lemma MemberOk(hash: Hasher, s: seq<char>, i: nat)
    requires i <= |s| && ParseMember(hash, s, i).Ok?
    ensures ParseKey(s, i).Ok? && IsSeparatorAt(s, Skip(s, ParseKey(s, i).next))
    ensures ParseMember(hash, s, i) == NamedResult(hash, ParseKey(s, i).value, ParseValue(hash, s, Skip(s, Skip(s, ParseKey(s, i).next) + 1)))
  {
  }

  /** A bareword key is taken verbatim, as far as identifier characters
      reach. */
  lemma BarewordKey(hash: Hasher, s: seq<char>, i: nat)
    requires i < |s| && IsIdentStart(s[i])
    requires ParseMember(hash, s, i).Ok?
    ensures ParseMember(hash, s, i).value.name == Some(s[i..IdentEnd(s, i)])
  {
    MemberNamed(hash, s, i);
  }

  /** A document that, after leading blanks and comments, starts with
      neither `{` nor `[` is read as the body of an object, up to the end
      of the input or a `}`. */
  lemma ImplicitObject(hash: Hasher, text: seq<char>)
    requires NoNul(text)
    requires var v := Skip(text, 0); v == |text| || (text[v] != '{' && text[v] != '[')
    ensures Parse(hash, text) == ParseObject(hash, text, Skip(text, 0))
    ensures Parse(hash, text).Ok? ==> Parse(hash, text).value.kind == Object
  {
  }

  /** An empty document is not an object: the implicit body needs at least
      one key, so parsing fails at offset 0. */
  lemma EmptyDocument(hash: Hasher)
    ensures Parse(hash, "") == Err(0)
  {
  }

  /** A bare `key=value` line is a one-member object that runs to the end of
      the input. */
  lemma BareAssignment(hash: Hasher)
    ensures Parse(hash, "a=1")
         == Ok(NewItem.(kind := Object, children := [NewItem.(kind := Number, num := Num(false, 1, 0), nameHash := hash("a"), name := Some("a"))]), 3)
  {
    var s := "a=1";
    var m := NewItem.(kind := Number, num := Num(false, 1, 0), nameHash := hash("a"), name := Some("a"));
    assert Skip(s, 0) == 0;
    assert NoNul(s);
    ImplicitObject(hash, s);
    BareObject(hash);
  }

  /** The implicit object of `a=1`: one member, closed by the end. */
  lemma BareObject(hash: Hasher)
    ensures ParseObject(hash, "a=1", 0)
         == Ok(NewItem.(kind := Object, children := [NewItem.(kind := Number, num := Num(false, 1, 0), nameHash := hash("a"), name := Some("a"))]), 3)
  {
    var s := "a=1";
    var m := NewItem.(kind := Number, num := Num(false, 1, 0), nameHash := hash("a"), name := Some("a"));
    BareMember(hash);
    assert Skip(s, 0) == 0 && Skip(s, 3) == 3;
    assert ParseMembers(hash, s, 3) == Ok([], 3);
    ObjectStep(hash, s, 0, m, 3, [], 3);
    assert [m] + [] == [m];
  }

  /** The member of `a=1`: the key `a`, then the value after `=`. */
  lemma BareMember(hash: Hasher)
    ensures ParseMember(hash, "a=1", 0)
         == Ok(NewItem.(kind := Number, num := Num(false, 1, 0), nameHash := hash("a"), name := Some("a")), 3)
  {
    var s := "a=1";
    assert IdentEnd(s, 0) == 1;
    assert s[0..1] == "a";
    assert ParseKey(s, 0) == Ok("a", 1);
    assert Skip(s, 1) == 1 && Skip(s, 2) == 2;
    BareValue(hash);
  }

  /** The value of `a=1`: the number 1, up to the end. */
  lemma BareValue(hash: Hasher)
    ensures ParseValue(hash, "a=1", 2) == Ok(NewItem.(kind := Number, num := Num(false, 1, 0)), 3)
  {
    var s := "a=1";
    assert SignedText(false, 1) == "1";
    LexDecimal(s, 2, false, 1);
    KeywordHead(s, 2);
  }

  // How each loop of the parser composes: the result of a step from the
  // results of its parts.

  /** A non-empty array is its first element followed by the element list. */
  lemma ArrayStep(hash: Hasher, s: seq<char>, i: nat, v: Node, k: nat, rest: seq<Node>, n: nat)
    requires i + 1 < |s| && s[i] == '[' && s[i + 1] != ']' && Skip(s, i + 1) == i + 1
    requires Yields(ParseValue(hash, s, i + 1), v, k)
    requires Yields(ParseElements(hash, s, Skip(s, k)), rest, n)
    ensures Yields(ParseArray(hash, s, i), NewItem.(kind := Array, children := [v] + rest), n)
  {
  }

  /** A `}` ends an object body that has no members... */
  lemma ObjectClosed(hash: Hasher, s: seq<char>, i: nat)
    requires i < |s| && s[i] == '}'
    ensures Yields(ParseObject(hash, s, i), NewItem.(kind := Object), i + 1)
  {
  }

  /** ... and the member list after the last member. */
  lemma MembersClosed(hash: Hasher, s: seq<char>, i: nat)
    requires i < |s| && s[i] == '}'
    ensures Yields(ParseMembers(hash, s, i), [], i + 1)
  {
  }

  /** A comma, an element, and the rest of the list. */
  lemma ElementsStep(hash: Hasher, s: seq<char>, i: nat, j: nat, v: Node, k: nat, rest: seq<Node>, n: nat)
    requires i < |s| && s[i] == ',' && Skip(s, i + 1) == j
    requires Yields(ParseValue(hash, s, j), v, k)
    requires k <= |s| && Skip(s, k) == k && Yields(ParseElements(hash, s, k), rest, n)
    ensures Yields(ParseElements(hash, s, i), [v] + rest, n)
  {
  }

  /** A non-empty object body is its first member followed by the rest. */
  lemma ObjectStep(hash: Hasher, s: seq<char>, q: nat, v: Node, m: nat, rest: seq<Node>, n: nat)
    requires q < |s| && s[q] != '}' && Skip(s, q) == q
    requires Yields(ParseMember(hash, s, q), v, m)
    requires Yields(ParseMembers(hash, s, Skip(s, m)), rest, n)
    ensures Yields(ParseObject(hash, s, q), NewItem.(kind := Object, children := [v] + rest), n)
  {
  }

  /** A comma, a member, and the rest of the members. */
  lemma MembersStep(hash: Hasher, s: seq<char>, i: nat, j: nat, v: Node, k: nat, rest: seq<Node>, n: nat)
    requires i < |s| && s[i] == ',' && Skip(s, i + 1) == j
    requires Yields(ParseMember(hash, s, j), v, k)
    requires Yields(ParseMembers(hash, s, Skip(s, k)), rest, n)
    ensures Yields(ParseMembers(hash, s, i), [v] + rest, n)
  {
  }

  /** A member is its value named with its key and the key's hash. */
  lemma MemberStep(hash: Hasher, s: seq<char>, q: nat, key: seq<char>, k: nat, j: nat, v: Node, n: nat)
    requires q <= |s| && Yields(ParseKey(s, q), key, k)
    requires Skip(s, k) == k && k < |s| && s[k] == ':' && Skip(s, k + 1) == j
    requires Yields(ParseValue(hash, s, j), v, n)
    ensures Yields(ParseMember(hash, s, q), v.(nameHash := hash(key), name := Some(key)), n)
  {
    MemberUnfold(hash, s, q, key, k, j);
  }

  /** A key at `q` ending at `k`, then a separator: the member is the
      value after the separator, named by the key. */
  lemma MemberUnfold(hash: Hasher, s: seq<char>, q: nat, key: seq<char>, k: nat, j: nat)
    requires q <= |s| && Yields(ParseKey(s, q), key, k)
    requires Skip(s, k) == k && k < |s| && s[k] == ':' && Skip(s, k + 1) == j
    ensures j <= |s| && ParseMember(hash, s, q) == NamedResult(hash, key, ParseValue(hash, s, j))
  {
    assert ParseKey(s, q) == Ok(key, k);
  }

}

=== FILE: parser.dfy ===
/** The recursive-descent parser: `parse_value` (sjson.cpp, lines 377-405),
    `parse_array` (lines 427-465), `parse_object` (lines 537-601) and the
    entry point `sJSONparse` (lines 345-364).

    Each function takes the whole text and a cursor and returns either the
    node built and the cursor after it, or the position the global error
    pointer `ep` would hold. Where the C code feeds the failure sentinel of
    `parse_value` into `skip`, the model propagates the failure. The key
    hash `eastl::murmurString` is a parameter. */
module Parser {
  import opened Base
  import opened Tree
  import opened Skipper
  import opened Strings
  import opened Numbers

  /** The node fields a parser-built node carries before its parent names it. */
  predicate Unnamed(n: Node) {
    !n.isRef && n.nameHash == 0 && n.name == None
  }

  /** What the parser guarantees of every node it builds: no references,
      `valueInt` 1 exactly on `true`, a NUL-free string exactly on strings,
      no number on non-numbers, children only on containers, array elements
      unnamed, and every object member named with its key's hash. */
  predicate WellFormed(hash: Hasher, n: Node) {
    && !n.isRef
    && n.valueInt == (if n.kind == True then 1 else 0)
    && (n.str.Some? <==> n.kind == String)
    && (n.str.Some? ==> NoNul(n.str.value))
    && (n.kind != Number ==> n.num == NoNum)
    && (n.kind != Array && n.kind != Object ==> n.children == [])
    && (n.kind == Array ==> forall c | c in n.children :: Unnamed(c) && WellFormed(hash, c))
    && (n.kind == Object ==> forall c | c in n.children :: Member(hash, c) && WellFormed(hash, c))
  }

  /** An object member: named, with the hash of its name. */
  predicate Member(hash: Hasher, c: Node) {
    !c.isRef && c.name.Some? && NoNul(c.name.value) && c.nameHash == hash(c.name.value)
  }

  /** An array of well-formed unnamed elements is well formed. */
  lemma ArrayWellFormed(hash: Hasher, first: Node, rest: seq<Node>)
    requires Unnamed(first) && WellFormed(hash, first)
    requires forall c | c in rest :: Unnamed(c) && WellFormed(hash, c)
    ensures forall c | c in [first] + rest :: Unnamed(c) && WellFormed(hash, c)
    ensures WellFormed(hash, NewItem.(kind := Array, children := [first] + rest))
  {
  }

  /** An object of well-formed members is well formed. */
  lemma ObjectWellFormed(hash: Hasher, first: Node, rest: seq<Node>)
    requires Member(hash, first) && WellFormed(hash, first)
    requires forall c | c in rest :: Member(hash, c) && WellFormed(hash, c)
    ensures forall c | c in [first] + rest :: Member(hash, c) && WellFormed(hash, c)
    ensures WellFormed(hash, NewItem.(kind := Object, children := [first] + rest))
  {
  }

  /** The first-byte test of `parse_value`: some branch takes the input. */
  predicate StartsValue(s: seq<char>, i: nat) {
    At(s, i, "null") || At(s, i, "false") || At(s, i, "true")
    || (i < |s| && (s[i] == '-' || IsDigit(s[i]) || s[i] == '[' || s[i] == '{' || s[i] == '"'))
  }

  /** `parse_string` on a node. */
  function ParseString(s: seq<char>, i: nat): (r: Res<Node>)
    requires i <= |s|
    ensures r.Ok? ==> i < r.next <= |s| && r.value.kind == String && r.value.str.Some?
    ensures r.Err? ==> i <= r.pos <= |s|
    ensures (i == |s| || s[i] != '"') ==> r == Err(i)
  {
    match DecodeString(s, i)
    case Ok(buf, n) => Ok(NewItem.(kind := String, str := Some(CString(buf))), n)
    case Err(e) => Err(e)
  }

  /** `parse_value`: the keywords by fixed-length prefix, then a number, an
      array, an object or a string, chosen by the first byte. */
  function ParseValue(hash: Hasher, s: seq<char>, i: nat): (r: Res<Node>)
    requires i <= |s|
    ensures r.Ok? ==> i < r.next <= |s| && Unnamed(r.value) && WellFormed(hash, r.value)
    ensures r.Err? ==> i <= r.pos <= |s|
    ensures (r.Err? && r.pos == i) <==> !StartsValue(s, i)
    ensures r.Ok? && r.value.kind == Null ==> At(s, i, "null") && r.next == i + 4
    ensures r.Ok? && r.value.kind == False ==> At(s, i, "false") && r.next == i + 5
    ensures r.Ok? && r.value.kind == True ==> At(s, i, "true") && r.next == i + 4
    ensures r.Ok? && r.value.kind == Number ==> s[i] == '-' || IsDigit(s[i])
    ensures r.Ok? && r.value.kind == Array ==> s[i] == '['
    ensures r.Ok? && r.value.kind == Object ==> s[i] == '{'
    ensures r.Ok? && r.value.kind == String ==> s[i] == '"'
    decreases |s| - i, 1
  {
    if At(s, i, "null") then Ok(NewItem.(kind := Null), i + 4)
    else if At(s, i, "false") then Ok(NewItem.(kind := False), i + 5)
    else if At(s, i, "true") then Ok(NewItem.(kind := True, valueInt := 1), i + 4)
    else if i < |s| && (s[i] == '-' || IsDigit(s[i])) then
      var lexed := LexNumber(s, i);
      Ok(NewItem.(kind := Number, num := lexed.0), lexed.1)
    else if i < |s| && s[i] == '[' then ParseArray(hash, s, i)
    else if i < |s| && s[i] == '{' then ParseObject(hash, s, Skip(s, i + 1))
    else if i < |s| && s[i] == '"' then
      var r := ParseString(s, i);
      assert r.Ok? ==> NoNul(r.value.str.value);
      r
    else Err(i)
  }

  /** `parse_array` at a `[`: the elements in source order, each optionally
      preceded by one comma, up to the closing `]`. */
  function ParseArray(hash: Hasher, s: seq<char>, i: nat): (r: Res<Node>)
    requires i <= |s|
    ensures r.Ok? ==> i < r.next <= |s| && ClosedBy(s, r.next, ']')
    ensures r.Ok? ==> r.value.kind == Array && Unnamed(r.value) && WellFormed(hash, r.value)
    ensures r.Err? ==> i <= r.pos <= |s|
    ensures r.Err? && r.pos == i ==> i == |s| || s[i] != '['
    decreases |s| - i, 0
  {
    if i == |s| || s[i] != '[' then Err(i)
    else
      var j := Skip(s, i + 1);
      if j < |s| && s[j] == ']' then Ok(NewItem.(kind := Array), j + 1)
      else
        match ParseValue(hash, s, Skip(s, j))
        case Err(e) => Err(e)
        case Ok(first, k) =>
          match ParseElements(hash, s, Skip(s, k))
          case Err(e) => Err(e)
          case Ok(rest, n) =>
            ArrayWellFormed(hash, first, rest);
            Ok(NewItem.(kind := Array, children := [first] + rest), n)
  }

  /** The element loop of `parse_array`, from a skipped position after an
      element: an optional comma, the next element, and so on until `]`. */
  function ParseElements(hash: Hasher, s: seq<char>, i: nat): (r: Res<seq<Node>>)
    requires i <= |s|
    ensures r.Ok? ==> i < r.next <= |s| && ClosedBy(s, r.next, ']')
    ensures r.Ok? ==> forall c | c in r.value :: Unnamed(c) && WellFormed(hash, c)
    ensures r.Err? ==> i <= r.pos <= |s|
    decreases |s| - i, 2
  {
    if i < |s| && s[i] == ']' then Ok([], i + 1)
    else
      var j := if i < |s| && s[i] == ',' then Skip(s, i + 1) else Skip(s, i);
      match ParseValue(hash, s, j)
      case Err(e) => Err(e)
      case Ok(item, k) =>
        match ParseElements(hash, s, Skip(s, k))
        case Err(e) => Err(e)
        case Ok(rest, n) =>
          ArrayWellFormed(hash, item, rest);
          Ok([item] + rest, n)
  }

  /** One member: a key, `:` or `=`, and a value that takes the key's name
      and hash. */
  function ParseMember(hash: Hasher, s: seq<char>, i: nat): (r: Res<Node>)
    requires i <= |s|
    ensures r.Ok? ==> i < r.next <= |s| && Member(hash, r.value) && WellFormed(hash, r.value)
    ensures r.Err? ==> i <= r.pos <= |s|
    decreases |s| - i, 3
  {
    match ParseKey(s, i)
    case Err(e) => Err(e)
    case Ok(key, k) =>
      var j := Skip(s, k);
      if IsSeparatorAt(s, j) then NamedResult(hash, key, ParseValue(hash, s, Skip(s, j + 1)))
      else Err(j)
  }

  /** The parsed value of a member, given its key's name and hash. */
  function NamedResult(hash: Hasher, key: seq<char>, r: Res<Node>): (m: Res<Node>)
    requires r.Ok? ==> Unnamed(r.value) && WellFormed(hash, r.value)
    requires NoNul(key)
    ensures m.Ok? <==> r.Ok?
    ensures m.Ok? ==> m.next == r.next && Member(hash, m.value) && WellFormed(hash, m.value)
    ensures m.Ok? ==> m.value.(nameHash := 0, name := None) == r.value
    ensures m.Err? ==> m.pos == r.pos
  {
    match r
    case Err(e) => Err(e)
    case Ok(v, n) => Ok(Named(hash, key, v), n)
  }

  /** The text before position `n` ends with `close`. */
  predicate ClosedBy(s: seq<char>, n: nat, close: char) {
    0 < n <= |s| && s[n - 1] == close
  }

  /** A container ending at `n` was closed by `close`, or ran to the end of
      the input. */
  predicate ClosedAt(s: seq<char>, n: nat, close: char) {
    n == |s| || ClosedBy(s, n, close)
  }

  /** Both `:` and `=` separate a key from its value. */
  predicate IsSeparatorAt(s: seq<char>, j: nat) {
    j < |s| && (s[j] == ':' || s[j] == '=')
  }

  /** `parse_object` from the skipped position after `{` (or from the start
      of an implicit top-level object): members up to a `}`, which is
      consumed, or up to the end of the input, which also succeeds. */
  function ParseObject(hash: Hasher, s: seq<char>, i: nat): (r: Res<Node>)
    requires i <= |s|
    ensures r.Ok? ==> i < r.next <= |s| && ClosedAt(s, r.next, '}')
    ensures r.Ok? ==> r.value.kind == Object && Unnamed(r.value) && WellFormed(hash, r.value)
    ensures r.Err? ==> i <= r.pos <= |s|
    decreases |s| - i, 4
  {
    if i < |s| && s[i] == '}' then Ok(NewItem.(kind := Object), i + 1)
    else
      match ParseMember(hash, s, Skip(s, i))
      case Err(e) => Err(e)
      case Ok(first, k) =>
        match ParseMembers(hash, s, Skip(s, k))
        case Err(e) => Err(e)
        case Ok(rest, n) =>
          ObjectWellFormed(hash, first, rest);
          Ok(NewItem.(kind := Object, children := [first] + rest), n)
  }

  /** The member loop of `parse_object`, from a skipped position after a
      member. */
  function ParseMembers(hash: Hasher, s: seq<char>, i: nat): (r: Res<seq<Node>>)
    requires i <= |s|
    ensures r.Ok? ==> i <= r.next <= |s| && ClosedAt(s, r.next, '}')
    ensures r.Ok? ==> forall c | c in r.value :: Member(hash, c) && WellFormed(hash, c)
    ensures r.Err? ==> i <= r.pos <= |s|
    decreases |s| - i, 4
  {
    if i == |s| then Ok([], i)
    else if s[i] == '}' then Ok([], i + 1)
    else
      var j := if s[i] == ',' then Skip(s, i + 1) else Skip(s, i);
      match ParseMember(hash, s, j)
      case Err(e) => Err(e)
      case Ok(item, k) =>
        match ParseMembers(hash, s, Skip(s, k))
        case Err(e) => Err(e)
        case Ok(rest, n) =>
          ObjectWellFormed(hash, item, rest);
          Ok([item] + rest, n)
  }

  /** `sJSONparse`: after leading blanks and comments, a `{` or `[` document
      is parsed as one value; anything else is the body of an implicit
      top-level object. Text after the top-level value is ignored. */
  function Parse(hash: Hasher, text: seq<char>): (r: Res<Node>)
    requires NoNul(text)
    ensures r.Ok? ==> Unnamed(r.value) && WellFormed(hash, r.value)
    ensures r.Ok? ==> r.value.kind == Array || r.value.kind == Object
    ensures r.Err? ==> r.pos <= |text|
  {
    var v := Skip(text, 0);
    if v < |text| && (text[v] == '{' || text[v] == '[') then
      KeywordHead(text, Skip(text, v));
      ParseValue(hash, text, Skip(text, v))
    else ParseObject(hash, text, Skip(text, v))
  }

  /** Each keyword starts with its own letter. */
  lemma KeywordHead(s: seq<char>, i: nat)
    ensures At(s, i, "null") ==> i < |s| && s[i] == 'n'
    ensures At(s, i, "false") ==> i < |s| && s[i] == 'f'
    ensures At(s, i, "true") ==> i < |s| && s[i] == 't'
  {
    if At(s, i, "null") { AtIndex(s, i, "null", 0); }
    if At(s, i, "false") { AtIndex(s, i, "false", 0); }
    if At(s, i, "true") { AtIndex(s, i, "true", 0); }
  }

  /** `sJSONgetErrorPtr` after a parse: null on success, else the position of
      the byte where parsing stopped. */
  function ErrorPtr(r: Res<Node>): (e: Option<nat>)
    ensures e.None? <==> r.Ok?
  {
    if r.Ok? then None else Some(r.pos)
  }
}

=== FILE: printer.dfy ===
/** The text side of the serializer: `print_value` (sjson.cpp, lines
    409-423), `print_array` (lines 469-533) and `print_object` (lines
    605-691), with strings escaped by `print_string_ptr`.

    Number rendering (`print_number`, floating point) is a parameter: a
    renderer returns the text for a number triple or fails. Every other
    allocation is infallible. A result `None` is the null pointer the C
    functions return when some child could not be rendered. */
module Printer {
  import opened Base
  import opened Tree
  import opened Strings

  /** The number renderer: the text `print_number` produces, or failure. */
  type Renderer = Num -> Option<seq<char>>

  /** `print_value`: the keywords, the renderer's text for a number, the
      escaped string, or the array or object text. The kind is read from
      `type & 255`, so a reference prints like what it refers to. */
  function PrintValue(render: Renderer, n: Node, depth: nat, fmt: bool): Option<seq<char>>
    decreases n, 1
  {
    match n.kind
    case Null => Some("null")
    case False => Some("false")
    case True => Some("true")
    case Number => render(n.num)
    case String => Some(PrintStringPtr(n.str))
    case Array => PrintArray(render, n, depth, fmt)
    case Object => PrintObject(render, n, depth, fmt)
  }

  /** The children rendered one by one at `depth`, in chain order; nothing
      when any of them fails. */
  function PrintEntries(render: Renderer, cs: seq<Node>, depth: nat, fmt: bool): (r: Option<seq<seq<char>>>)
    ensures r.Some? ==> |r.value| == |cs|
    decreases cs
  {
    if cs == [] then Some([])
    else match PrintValue(render, cs[0], depth, fmt)
      case None => None
      case Some(e) =>
        match PrintEntries(render, cs[1..], depth, fmt)
        case None => None
        case Some(es) => Some([e] + es)
  }

  /** The separator between array entries: a comma, and a space when
      formatting. */
  function ArraySeparator(fmt: bool): seq<char> { if fmt then ", " else "," }

  /** The entries one after the other with `sep` between neighbours. */
  function Joined(es: seq<seq<char>>, sep: seq<char>): seq<char>
  {
    if es == [] then [] else es[0] + SeparatedTail(es[1..], sep)
  }

  /** Each entry preceded by `sep`. */
  function SeparatedTail(es: seq<seq<char>>, sep: seq<char>): seq<char>
  {
    if es == [] then [] else sep + es[0] + SeparatedTail(es[1..], sep)
  }

  /** `print_array`: `[`, the entries rendered one level deeper and
      separated by `,` (`, ` when formatting), then `]`. */
  function PrintArray(render: Renderer, n: Node, depth: nat, fmt: bool): Option<seq<char>>
    decreases n, 0
  {
    match PrintEntries(render, n.children, depth + 1, fmt)
    case None => None
    case Some(es) => Some(['['] + Joined(es, ArraySeparator(fmt)) + [']'])
  }

  function Tabs(k: nat): (r: seq<char>)
    ensures |r| == k && forall j :: 0 <= j < |r| ==> r[j] == '\t'
  {
    if k == 0 then [] else ['\t'] + Tabs(k - 1)
  }

  /** The indentation of a member line at depth `d`. */
  function Indent(d: nat, fmt: bool): seq<char> { if fmt then Tabs(d) else [] }

  /** What separates a member's name from its value. */
  function Colon(fmt: bool): seq<char> { [':'] + (if fmt then ['\t'] else []) }

  /** A newline when formatting. */
  function Newline(fmt: bool): seq<char> { if fmt then ['\n'] else [] }

  /** What follows a member's value: a comma unless it is the last member,
      and a newline when formatting. */
  function Trailer(more: bool, fmt: bool): seq<char>
  {
    if more then [','] + Newline(fmt) else Newline(fmt)
  }

  /** The member lines of `print_object` at inner depth `d`. */
  function MemberLines(names: seq<seq<char>>, es: seq<seq<char>>, d: nat, fmt: bool): seq<char>
    requires |names| == |es|
  {
    if es == [] then []
    else Indent(d, fmt) + names[0] + Colon(fmt) + es[0] + Trailer(|es| > 1, fmt)
         + MemberLines(names[1..], es[1..], d, fmt)
  }

  /** The text before the first member line: `{`, and a newline when
      formatting. */
  function ObjectOpen(fmt: bool): seq<char> { ['{'] + Newline(fmt) }

  /** The text after the last member line at inner depth `d`: the outer
      indentation when formatting, then `}`. */
  function ObjectClose(d: nat, fmt: bool): seq<char>
    requires d >= 1
  {
    Indent(d - 1, fmt) + ['}']
  }

  /** The escaped names of the members, as `print_string_ptr` renders them;
      a member without a name has the empty text. */
  function PrintNames(cs: seq<Node>): (r: seq<seq<char>>)
    ensures |r| == |cs|
    ensures forall k :: 0 <= k < |cs| ==> r[k] == PrintStringPtr(cs[k].name)
  {
    if cs == [] then [] else [PrintStringPtr(cs[0].name)] + PrintNames(cs[1..])
  }

  /** `print_object`: `{`, a newline when formatting, the member lines at
      depth `depth + 1`, the closing indentation when formatting, then `}`. */
  function PrintObject(render: Renderer, n: Node, depth: nat, fmt: bool): Option<seq<char>>
    decreases n, 0
  {
    var d := depth + 1;
    match PrintEntries(render, n.children, d, fmt)
    case None => None
    case Some(es) =>
      Some(ObjectOpen(fmt) + MemberLines(PrintNames(n.children), es, d, fmt) + ObjectClose(d, fmt))
  }

  /** `sJSONprint` and `sJSONprintUnformatted`. */
  function Print(render: Renderer, n: Node): Option<seq<char>> { PrintValue(render, n, 0, true) }

  function PrintUnformatted(render: Renderer, n: Node): Option<seq<char>> { PrintValue(render, n, 0, false) }

  // ---------------------------------------------------------------------
  // What the entries are.

  /** The entries are exactly the children's own renderings, and there are
      entries exactly when every child renders. */
  lemma {:induction false} EntriesAreChildren(render: Renderer, cs: seq<Node>, depth: nat, fmt: bool)
    ensures PrintEntries(render, cs, depth, fmt).Some?
        <==> forall k :: 0 <= k < |cs| ==> PrintValue(render, cs[k], depth, fmt).Some?
    ensures PrintEntries(render, cs, depth, fmt).Some? ==>
              forall k :: 0 <= k < |cs| ==> PrintEntries(render, cs, depth, fmt).value[k] == PrintValue(render, cs[k], depth, fmt).value
    decreases cs
  {
    if cs != [] {
      EntriesAreChildren(render, cs[1..], depth, fmt);
      assert forall k :: 1 <= k < |cs| ==> cs[k] == cs[1..][k - 1];
    }
  }

  /** A reference prints exactly like the node it refers to: printing reads
      neither the reference flag nor the name. */
  lemma PrintReference(render: Renderer, item: Node, depth: nat, fmt: bool)
    ensures PrintValue(render, Reference(item), depth, fmt) == PrintValue(render, item, depth, fmt)
  {
  }

  // ---------------------------------------------------------------------
  // Lengths against the buffers the C code allocates.

  function SumLengths(es: seq<seq<char>>): nat
  {
    if es == [] then 0 else |es[0]| + SumLengths(es[1..])
  }

  lemma {:induction false} SeparatedTailLength(es: seq<seq<char>>, sep: seq<char>)
    ensures |SeparatedTail(es, sep)| == SumLengths(es) + |es| * |sep|
  {
    if es != [] {
      SeparatedTailLength(es[1..], sep);
    }
  }

  /** The buffer `print_array` allocates: 5, plus per entry its length, 2,
      and 1 more when formatting. */
  function ArrayBudget(es: seq<seq<char>>, fmt: bool): nat
  {
    5 + SumLengths(es) + |es| * (if fmt then 3 else 2)
  }

  /** The array text is `[`, the entries joined by the separator, and `]`;
      its length counts the entries, `|es| - 1` separators and the two
      brackets, and with its terminator it fits the buffer allocated for it. */
  lemma ArrayFits(render: Renderer, n: Node, depth: nat, fmt: bool)
    requires PrintArray(render, n, depth, fmt).Some?
    ensures var es := PrintEntries(render, n.children, depth + 1, fmt).value;
            var text := PrintArray(render, n, depth, fmt).value;
            && |text| == 2 + SumLengths(es) + (if es == [] then 0 else (|es| - 1) * |ArraySeparator(fmt)|)
            && text == ['['] + Joined(es, ArraySeparator(fmt)) + [']']
            && |text| + 1 <= ArrayBudget(es, fmt)
  {
    var es := PrintEntries(render, n.children, depth + 1, fmt).value;
    if es != [] {
      SeparatedTailLength(es[1..], ArraySeparator(fmt));
    }
  }

  /** Per member: name, value, `:`, a comma or spare byte, and when
      formatting the tab, the newline and the indentation of depth `d`. */
  function MemberBudget(names: seq<seq<char>>, es: seq<seq<char>>, d: nat, fmt: bool): nat
    requires |names| == |es|
  {
    if es == [] then 0
    else |es[0]| + |names[0]| + 2 + (if fmt then 2 + d else 0) + MemberBudget(names[1..], es[1..], d, fmt)
  }

  lemma {:induction false} MemberLinesLength(names: seq<seq<char>>, es: seq<seq<char>>, d: nat, fmt: bool)
    requires |names| == |es|
    ensures |MemberLines(names, es, d, fmt)| + 1 == MemberBudget(names, es, d, fmt) + (if es == [] then 1 else 0)
  {
    if es != [] {
      MemberLinesLength(names[1..], es[1..], d, fmt);
    }
  }

  /** The buffer `print_object` allocates: 7, the indentation when
      formatting, and the member budget. */
  function ObjectBudget(names: seq<seq<char>>, es: seq<seq<char>>, d: nat, fmt: bool): nat
    requires |names| == |es|
  {
    7 + (if fmt then d else 0) + MemberBudget(names, es, d, fmt)
  }

  /** The object text with its terminator fits the buffer allocated for it. */
  lemma ObjectFits(render: Renderer, n: Node, depth: nat, fmt: bool)
    requires PrintObject(render, n, depth, fmt).Some?
    ensures var es := PrintEntries(render, n.children, depth + 1, fmt).value;
            |PrintObject(render, n, depth, fmt).value| + 1
              <= ObjectBudget(PrintNames(n.children), es, depth + 1, fmt)
  {
    var es := PrintEntries(render, n.children, depth + 1, fmt).value;
    MemberLinesLength(PrintNames(n.children), es, depth + 1, fmt);
  }

  // ---------------------------------------------------------------------
  // The output is a C string.

  /** A renderer that writes no NUL byte. */
  ghost predicate CleanRenderer(render: Renderer) {
    forall n :: render(n).Some? ==> NoNul(render(n).value)
  }

  /** The serializer writes no NUL byte, whatever the tree holds: strings and
      names are read only up to their terminator and escaped. */
  lemma {:induction false} PrintedNoNul(render: Renderer, t: Node, depth: nat, fmt: bool)
    requires CleanRenderer(render)
    requires PrintValue(render, t, depth, fmt).Some?
    ensures NoNul(PrintValue(render, t, depth, fmt).value)
    decreases t, 2
  {
    match t.kind
    case String =>
      PrintStringNoNul(t.str);
    case Array =>
      ArrayNoNul(render, t, depth, fmt);
    case Object =>
      ObjectNoNul(render, t, depth, fmt);
    case _ =>
  }

  lemma {:induction false} ArrayNoNul(render: Renderer, t: Node, depth: nat, fmt: bool)
    requires CleanRenderer(render)
    requires PrintArray(render, t, depth, fmt).Some?
    ensures NoNul(PrintArray(render, t, depth, fmt).value)
    decreases t, 1
  {
    var es := PrintEntries(render, t.children, depth + 1, fmt).value;
    var body := Joined(es, ArraySeparator(fmt));
    ChildrenNoNul(render, t, depth + 1, fmt);
    JoinedNoNul(es, ArraySeparator(fmt));
    NoNulConcat(['['], body);
    NoNulConcat(['['] + body, [']']);
  }

  lemma {:induction false} ObjectNoNul(render: Renderer, t: Node, depth: nat, fmt: bool)
    requires CleanRenderer(render)
    requires PrintObject(render, t, depth, fmt).Some?
    ensures NoNul(PrintObject(render, t, depth, fmt).value)
    decreases t, 1
  {
    var es := PrintEntries(render, t.children, depth + 1, fmt).value;
    var names := PrintNames(t.children);
    var lines := MemberLines(names, es, depth + 1, fmt);
    assert PrintObject(render, t, depth, fmt).value == ObjectOpen(fmt) + lines + ObjectClose(depth + 1, fmt);
    ChildrenNoNul(render, t, depth + 1, fmt);
    NamesNoNul(t.children);
    MemberLinesNoNul(names, es, depth + 1, fmt);
    FrameNoNul(ObjectOpen(fmt), lines, ObjectClose(depth + 1, fmt));
  }

  lemma NamesNoNul(cs: seq<Node>)
    ensures forall k :: 0 <= k < |cs| ==> NoNul(PrintNames(cs)[k])
  {
    forall k | 0 <= k < |cs|
      ensures NoNul(PrintNames(cs)[k])
    {
      PrintStringNoNul(cs[k].name);
    }
  }

  /** A NUL-free text between NUL-free delimiters. */
  lemma FrameNoNul(open: seq<char>, body: seq<char>, close: seq<char>)
    requires NoNul(open) && NoNul(body) && NoNul(close)
    ensures NoNul(open + body + close)
  {
    NoNulConcat(open, body);
    NoNulConcat(open + body, close);
  }

  lemma {:induction false} ChildrenNoNul(render: Renderer, t: Node, depth: nat, fmt: bool)
    requires CleanRenderer(render)
    requires PrintEntries(render, t.children, depth, fmt).Some?
    ensures forall k :: 0 <= k < |t.children| ==> NoNul(PrintEntries(render, t.children, depth, fmt).value[k])
    decreases t, 0
  {
    EntriesAreChildren(render, t.children, depth, fmt);
    forall k | 0 <= k < |t.children|
      ensures NoNul(PrintEntries(render, t.children, depth, fmt).value[k])
    {
      PrintedNoNul(render, t.children[k], depth, fmt);
    }
  }

  lemma {:induction false} JoinedNoNul(es: seq<seq<char>>, sep: seq<char>)
    requires NoNul(sep) && forall k :: 0 <= k < |es| ==> NoNul(es[k])
    ensures NoNul(SeparatedTail(es, sep)) && NoNul(Joined(es, sep))
    decreases es
  {
    if es != [] {
      JoinedNoNul(es[1..], sep);
      NoNulConcat(sep, es[0]);
      NoNulConcat(sep + es[0], SeparatedTail(es[1..], sep));
      NoNulConcat(es[0], SeparatedTail(es[1..], sep));
    }
  }

  lemma {:induction false} MemberLinesNoNul(names: seq<seq<char>>, es: seq<seq<char>>, d: nat, fmt: bool)
    requires |names| == |es|
    requires forall k :: 0 <= k < |es| ==> NoNul(names[k]) && NoNul(es[k])
    ensures NoNul(MemberLines(names, es, d, fmt))
    decreases es
  {
    if es != [] {
      var line := Indent(d, fmt) + names[0] + Colon(fmt) + es[0] + Trailer(|es| > 1, fmt);
      MemberLinesNoNul(names[1..], es[1..], d, fmt);
      NoNulConcat(Indent(d, fmt), names[0]);
      NoNulConcat(Indent(d, fmt) + names[0], Colon(fmt));
      NoNulConcat(Indent(d, fmt) + names[0] + Colon(fmt), es[0]);
      NoNulConcat(Indent(d, fmt) + names[0] + Colon(fmt) + es[0], Trailer(|es| > 1, fmt));
      NoNulConcat(line, MemberLines(names[1..], es[1..], d, fmt));
    }
  }
}

=== FILE: roundtrip.dfy ===
/** Printing and parsing are inverse on the trees the parser builds: the
    text `print_value` produces, formatted or not, parses back to the same
    tree, with every member's name and hash restored.

    Numbers are rendered by the integral branch of `print_number`, which
    prints `%d` (sjson.cpp, lines 132-139), restricted to the triples that
    `%d` text reads back to: exponent 0 and not negative zero. The C branch
    also takes a scaled integral value such as `1.0` or `1e2`, and negative
    zero, and prints them as a plain integer that parses to a different
    triple; trees holding such numbers are outside the round trip. The
    32-bit range of that branch is not modelled. */
module RoundTrip {
  import opened Base
  import opened Tree
  import opened Skipper
  import opened Strings
  import opened Numbers
  import opened Parser
  import opened Printer
  import opened ParseFacts

  /** The `%d` branch of `print_number` on the triples whose `%d` text
      reads back to the same triple: exponent 0, not negative zero. Every
      other triple, including the integral ones C also prints with `%d`
      (`1.0`, `1e2`, `-0`), does not render. */
  function IntegerRender(n: Num): (r: Option<seq<char>>)
    ensures r.Some? <==> n.exponent == 0 && n.mantissa >= 0 && (n.negative ==> n.mantissa > 0)
    ensures r.Some? ==> |r.value| > 0 && (r.value[0] == '-' || IsDigit(r.value[0]))
  {
    if n.exponent == 0 && n.mantissa >= 0 && (n.negative ==> n.mantissa > 0) then
      Some(SignedText(n.negative, n.mantissa))
    else None
  }

  /** The node with the name fields a fresh parse leaves on it. */
  function Unname(t: Node): (r: Node)
    ensures Unnamed(r) <==> !t.isRef
  {
    t.(nameHash := 0, name := None)
  }

  predicate Blanks(b: seq<char>) { forall k :: 0 <= k < |b| ==> IsBlank(b[k]) }

  /** A byte at which the skipper stops at once. */
  predicate Solid(c: char) { !IsBlank(c) && c != '/' }

  /** The skipper steps over a run of blanks up to a solid byte. */
  lemma SkipOver(s: seq<char>, i: nat, b: seq<char>)
    requires At(s, i, b) && Blanks(b)
    requires i + |b| < |s| && Solid(s[i + |b|])
    ensures Skip(s, i) == i + |b|
  {
    forall k | i <= k < i + |b|
      ensures IsBlank(s[k])
    {
      AtIndex(s, i, b, k - i);
    }
    SkipBlanks(s, i, i + |b|);
    assert StopsAt(s, i + |b|);
  }

  lemma LayoutBlank(k: nat, fmt: bool)
    ensures Blanks(Indent(k, fmt)) && Blanks(Newline(fmt))
  {
  }

  /** Every printed value starts with a solid byte. */
  lemma PrintedStart(hash: Hasher, t: Node, d: nat, fmt: bool)
    requires WellFormed(hash, t)
    requires PrintValue(IntegerRender, t, d, fmt).Some?
    ensures var p := PrintValue(IntegerRender, t, d, fmt).value;
            && |p| > 0 && Solid(p[0]) && p[0] != ']'
            && (t.kind == Array ==> p[0] == '[')
            && (t.kind == Object ==> p[0] == '{')
  {
    var p := PrintValue(IntegerRender, t, d, fmt).value;
    match t.kind
    case Array =>
      var es := PrintEntries(IntegerRender, t.children, d + 1, fmt).value;
      assert p == ['['] + Joined(es, ArraySeparator(fmt)) + [']'];
    case Object =>
      var es := PrintEntries(IntegerRender, t.children, d + 1, fmt).value;
      assert p == ObjectOpen(fmt) + MemberLines(PrintNames(t.children), es, d + 1, fmt) + ObjectClose(d + 1, fmt);
    case _ =>
  }

  /** A byte other than `n`, `f` and `t` starts no keyword. */
  lemma NoKeyword(s: seq<char>, i: nat)
    requires i < |s| && s[i] != 'n' && s[i] != 'f' && s[i] != 't'
    ensures !At(s, i, "null") && !At(s, i, "false") && !At(s, i, "true")
  {
    if At(s, i, "null") { AtIndex(s, i, "null", 0); }
    if At(s, i, "false") { AtIndex(s, i, "false", 0); }
    if At(s, i, "true") { AtIndex(s, i, "true", 0); }
  }

  /** A well-formed node is determined by its kind and payload: all other
      fields are those of a fresh item. */
  lemma Canonical(hash: Hasher, t: Node)
    requires WellFormed(hash, t)
    ensures Unname(t) == NewItem.(kind := t.kind, valueInt := t.valueInt, str := t.str, num := t.num, children := t.children)
  {
  }

  /** A well-formed array or object without its name is a fresh item of
      its kind holding its children. */
  lemma ContainerCanonical(hash: Hasher, t: Node)
    requires WellFormed(hash, t) && (t.kind == Array || t.kind == Object)
    ensures Unname(t) == NewItem.(kind := t.kind, children := t.children)
  {
    Canonical(hash, t);
  }

  /** A value's printed text, followed by anything that cannot extend a
      number, parses back to the value without its name. */
  lemma {:induction false} ValueRoundTrip(hash: Hasher, t: Node, d: nat, fmt: bool, s: seq<char>, i: nat, v: seq<char>, e: nat)
    requires WellFormed(hash, t)
    requires PrintValue(IntegerRender, t, d, fmt) == Some(v)
    requires At(s, i, v) && e == i + |v| && (e < |s| ==> !ContinuesNumber(s[e]))
    ensures Yields(ParseValue(hash, s, i), Unname(t), e)
    decreases t, 3
  {
    match t.kind
    case Array =>
      ArrayValueRoundTrip(hash, t, d, fmt, s, i);
    case Object =>
      ObjectValueRoundTrip(hash, t, d, fmt, s, i);
    case _ =>
      ScalarRoundTrip(hash, t, d, fmt, s, i);
  }

  /** The keywords, numbers and strings. */
  lemma ScalarRoundTrip(hash: Hasher, t: Node, d: nat, fmt: bool, s: seq<char>, i: nat)
    requires WellFormed(hash, t) && t.kind != Array && t.kind != Object
    requires PrintValue(IntegerRender, t, d, fmt).Some?
    requires At(s, i, PrintValue(IntegerRender, t, d, fmt).value)
    requires var e := i + |PrintValue(IntegerRender, t, d, fmt).value|; e < |s| ==> !ContinuesNumber(s[e])
    ensures Yields(ParseValue(hash, s, i), Unname(t), i + |PrintValue(IntegerRender, t, d, fmt).value|)
  {
    Canonical(hash, t);
    match t.kind
    case Null =>
      KeywordRoundTrip(hash, t, d, fmt, s, i);
    case False =>
      KeywordRoundTrip(hash, t, d, fmt, s, i);
    case True =>
      KeywordRoundTrip(hash, t, d, fmt, s, i);
    case Number =>
      NumberRoundTrip(hash, t.num, s, i);
    case String =>
      StringRoundTrip(hash, t.str.value, s, i);
  }

  /** `null`, `false` and `true` read back as themselves. */
  lemma KeywordRoundTrip(hash: Hasher, t: Node, d: nat, fmt: bool, s: seq<char>, i: nat)
    requires WellFormed(hash, t) && (t.kind == Null || t.kind == False || t.kind == True)
    requires PrintValue(IntegerRender, t, d, fmt).Some?
    requires At(s, i, PrintValue(IntegerRender, t, d, fmt).value)
    ensures Yields(ParseValue(hash, s, i), Unname(t), i + |PrintValue(IntegerRender, t, d, fmt).value|)
  {
    Canonical(hash, t);
    if t.kind == False {
      AtIndex(s, i, "false", 0);
    } else if t.kind == True {
      AtIndex(s, i, "true", 0);
    }
  }

  /** A number printed by the `%d` branch reads back as the same triple. */
  lemma NumberRoundTrip(hash: Hasher, n: Num, s: seq<char>, i: nat)
    requires IntegerRender(n).Some?
    requires At(s, i, IntegerRender(n).value)
    requires i + |IntegerRender(n).value| < |s| ==> !ContinuesNumber(s[i + |IntegerRender(n).value|])
    ensures Yields(ParseValue(hash, s, i), NewItem.(kind := Number, num := n), i + |IntegerRender(n).value|)
  {
    AtIndex(s, i, IntegerRender(n).value, 0);
    NoKeyword(s, i);
    LexDecimal(s, i, n.negative, n.mantissa);
  }

  /** An escaped string reads back as the same text. */
  lemma StringRoundTrip(hash: Hasher, x: seq<char>, s: seq<char>, i: nat)
    requires NoNul(x)
    requires At(s, i, PrintStringPtr(Some(x)))
    ensures Yields(ParseValue(hash, s, i), NewItem.(kind := String, str := Some(x)), i + |PrintStringPtr(Some(x))|)
  {
    EscapeRoundTrip(s, i, x);
    AtIndex(s, i, PrintStringPtr(Some(x)), 0);
    NoKeyword(s, i);
    CStringOfNoNul(x);
  }

  lemma {:induction false} ArrayValueRoundTrip(hash: Hasher, t: Node, d: nat, fmt: bool, s: seq<char>, i: nat)
    requires WellFormed(hash, t) && t.kind == Array
    requires PrintValue(IntegerRender, t, d, fmt).Some?
    requires At(s, i, PrintValue(IntegerRender, t, d, fmt).value)
    ensures Yields(ParseValue(hash, s, i), Unname(t), i + |PrintValue(IntegerRender, t, d, fmt).value|)
    decreases t, 2
  {
    var p := PrintValue(IntegerRender, t, d, fmt).value;
    PrintedStart(hash, t, d, fmt);
    AtIndex(s, i, p, 0);
    assert s[i] == '[';
    NoKeyword(s, i);
    ArrayRoundTrip(hash, t, d, fmt, s, i);
  }

  lemma {:induction false} ObjectValueRoundTrip(hash: Hasher, t: Node, d: nat, fmt: bool, s: seq<char>, i: nat)
    requires WellFormed(hash, t) && t.kind == Object
    requires PrintValue(IntegerRender, t, d, fmt).Some?
    requires At(s, i, PrintValue(IntegerRender, t, d, fmt).value)
    ensures Yields(ParseValue(hash, s, i), Unname(t), i + |PrintValue(IntegerRender, t, d, fmt).value|)
    decreases t, 2
  {
    var p := PrintValue(IntegerRender, t, d, fmt).value;
    PrintedStart(hash, t, d, fmt);
    AtIndex(s, i, p, 0);
    assert s[i] == '{';
    NoKeyword(s, i);
    ObjectRoundTrip(hash, t, d, fmt, s, i);
  }

  /** The first entry is the first child's text, the rest are the rest. */
  lemma EntriesHead(cs: seq<Node>, d: nat, fmt: bool)
    requires cs != [] && PrintEntries(IntegerRender, cs, d, fmt).Some?
    ensures var es := PrintEntries(IntegerRender, cs, d, fmt).value;
            && PrintValue(IntegerRender, cs[0], d, fmt) == Some(es[0])
            && PrintEntries(IntegerRender, cs[1..], d, fmt) == Some(es[1..])
  {
  }

  /** The printed non-empty array at `i`: `[`, the first entry up to `k`,
      the rest of the entries each after a separator up to `e`, and `]`. */
  lemma ArrayLayout(t: Node, d: nat, fmt: bool, s: seq<char>, i: nat, k: nat, e: nat)
    requires PrintArray(IntegerRender, t, d, fmt).Some? && t.children != []
    requires At(s, i, PrintArray(IntegerRender, t, d, fmt).value)
    requires k == i + 1 + |PrintEntries(IntegerRender, t.children, d + 1, fmt).value[0]|
    requires e == k + |SeparatedTail(PrintEntries(IntegerRender, t.children, d + 1, fmt).value[1..], ArraySeparator(fmt))|
    ensures PrintValue(IntegerRender, t.children[0], d + 1, fmt).Some?
    ensures PrintEntries(IntegerRender, t.children[1..], d + 1, fmt).Some?
    ensures i < |s| && s[i] == '['
    ensures k == i + 1 + |PrintValue(IntegerRender, t.children[0], d + 1, fmt).value|
    ensures e == k + |SeparatedTail(PrintEntries(IntegerRender, t.children[1..], d + 1, fmt).value, ArraySeparator(fmt))|
    ensures At(s, i + 1, PrintValue(IntegerRender, t.children[0], d + 1, fmt).value)
    ensures At(s, k, SeparatedTail(PrintEntries(IntegerRender, t.children[1..], d + 1, fmt).value, ArraySeparator(fmt)) + [']'])
    ensures |PrintArray(IntegerRender, t, d, fmt).value| == e + 1 - i
  {
    EntriesHead(t.children, d + 1, fmt);
    ArrayText(PrintEntries(IntegerRender, t.children, d + 1, fmt).value, fmt, s, i, k);
  }

  /** The bracketed entries, split at the end `k` of the first entry. */
  lemma ArrayText(es: seq<seq<char>>, fmt: bool, s: seq<char>, i: nat, k: nat)
    requires es != [] && At(s, i, ['['] + Joined(es, ArraySeparator(fmt)) + [']'])
    requires k == i + 1 + |es[0]|
    ensures i < |s| && s[i] == '[' && At(s, i + 1, es[0])
    ensures At(s, k, SeparatedTail(es[1..], ArraySeparator(fmt)) + [']'])
  {
    assert ['['] + Joined(es, ArraySeparator(fmt)) + [']'] == ['['] + es[0] + (SeparatedTail(es[1..], ArraySeparator(fmt)) + [']']);
    AtConcat3(s, i, ['['], es[0], SeparatedTail(es[1..], ArraySeparator(fmt)) + [']']);
    AtIndex(s, i, ['['], 0);
  }

  /** A separated entry list whose first entry starts with a solid byte:
      the separator, the first entry, and the rest. */
  lemma ElementsLayout(es: seq<seq<char>>, fmt: bool, s: seq<char>, k: nat)
    requires es != [] && |es[0]| > 0 && Solid(es[0][0])
    requires At(s, k, SeparatedTail(es, ArraySeparator(fmt)) + [']'])
    ensures var sep := ArraySeparator(fmt);
            var tail := SeparatedTail(es[1..], sep);
            var j := k + |sep|;
            var m := j + |es[0]|;
            && k < |s| && s[k] == ',' && Skip(s, k + 1) == j && At(s, j, es[0])
            && At(s, m, tail + [']']) && m < |s| && (s[m] == ',' || s[m] == ']')
            && |SeparatedTail(es, sep)| == |sep| + |es[0]| + |tail|
  {
    var sep := ArraySeparator(fmt);
    var tail := SeparatedTail(es[1..], sep);
    assert SeparatedTail(es, sep) + [']'] == sep + es[0] + (tail + [']']);
    AtConcat3(s, k, sep, es[0], tail + [']']);
    AtIndex(s, k, sep, 0);
    var j := k + |sep|;
    AtIndex(s, j, es[0], 0);
    AtIndex(s, j + |es[0]|, tail + [']'], 0);
    assert At(s, k + 1, sep[1..]) by {
      assert s[k + 1..j] == s[k..j][1..];
    }
    SkipOver(s, k + 1, sep[1..]);
  }

  /** The skipper steps over two runs of blanks up to a solid byte. */
  lemma SkipOver2(s: seq<char>, i: nat, a: seq<char>, b: seq<char>, j: nat, k: nat)
    requires j == i + |a| && k == j + |b|
    requires At(s, i, a) && At(s, j, b) && Blanks(a) && Blanks(b)
    requires k < |s| && Solid(s[k])
    ensures Skip(s, i) == k
  {
    SkipOver(s, j, b);
    forall x | i <= x < j
      ensures IsBlank(s[x])
    {
      AtIndex(s, i, a, x - i);
    }
    SkipBlanks(s, i, j);
  }

  lemma SolidStops(s: seq<char>, i: nat)
    requires i < |s| && Solid(s[i])
    ensures Skip(s, i) == i
  {
    assert StopsAt(s, i);
  }

  /** The member lines of a list of members: the first member's line, then
      the lines of the rest. */
  lemma MemberLinesUnfold(cs: seq<Node>, d: nat, fmt: bool)
    requires cs != [] && PrintEntries(IntegerRender, cs, d, fmt).Some?
    ensures PrintValue(IntegerRender, cs[0], d, fmt) == Some(PrintEntries(IntegerRender, cs, d, fmt).value[0])
    ensures PrintEntries(IntegerRender, cs[1..], d, fmt).Some?
    ensures MemberLines(PrintNames(cs), PrintEntries(IntegerRender, cs, d, fmt).value, d, fmt)
         == Indent(d, fmt) + PrintStringPtr(cs[0].name) + Colon(fmt) + PrintValue(IntegerRender, cs[0], d, fmt).value
            + Trailer(cs[1..] != [], fmt)
            + MemberLines(PrintNames(cs[1..]), PrintEntries(IntegerRender, cs[1..], d, fmt).value, d, fmt)
  {
    EntriesHead(cs, d, fmt);
    assert PrintNames(cs)[1..] == PrintNames(cs[1..]);
  }

  /** The first member line of a list of members at `p`, positioned: the
      name at `q`, the trailer at `n`, the lines of the rest at `r`. */
  lemma FirstMemberLine(cs: seq<Node>, d: nat, fmt: bool, s: seq<char>, p: nat, q: nat, k: nat, j: nat, n: nat, r: nat)
    requires cs != [] && PrintEntries(IntegerRender, cs, d, fmt).Some?
    requires At(s, p, MemberLines(PrintNames(cs), PrintEntries(IntegerRender, cs, d, fmt).value, d, fmt))
    requires q == p + |Indent(d, fmt)| && k == q + |PrintStringPtr(cs[0].name)| && j == k + |Colon(fmt)|
    requires n == j + |PrintEntries(IntegerRender, cs, d, fmt).value[0]|
    requires r == n + |Trailer(cs[1..] != [], fmt)|
    ensures At(s, p, Indent(d, fmt))
    ensures PrintValue(IntegerRender, cs[0], d, fmt) == Some(PrintEntries(IntegerRender, cs, d, fmt).value[0])
    ensures At(s, q, PrintStringPtr(cs[0].name)) && At(s, k, Colon(fmt))
    ensures At(s, j, PrintValue(IntegerRender, cs[0], d, fmt).value)
    ensures PrintEntries(IntegerRender, cs[1..], d, fmt).Some?
    ensures At(s, n, Trailer(cs[1..] != [], fmt))
    ensures At(s, r, MemberLines(PrintNames(cs[1..]), PrintEntries(IntegerRender, cs[1..], d, fmt).value, d, fmt))
    ensures p + |MemberLines(PrintNames(cs), PrintEntries(IntegerRender, cs, d, fmt).value, d, fmt)|
         == r + |MemberLines(PrintNames(cs[1..]), PrintEntries(IntegerRender, cs[1..], d, fmt).value, d, fmt)|
  {
    MemberLinesUnfold(cs, d, fmt);
    AtSplit(s, p,
      Indent(d, fmt) + PrintStringPtr(cs[0].name) + Colon(fmt) + PrintValue(IntegerRender, cs[0], d, fmt).value
        + Trailer(cs[1..] != [], fmt),
      MemberLines(PrintNames(cs[1..]), PrintEntries(IntegerRender, cs[1..], d, fmt).value, d, fmt), r);
    AtSplit(s, p,
      Indent(d, fmt) + PrintStringPtr(cs[0].name) + Colon(fmt) + PrintValue(IntegerRender, cs[0], d, fmt).value,
      Trailer(cs[1..] != [], fmt), n);
    AtSplit(s, p,
      Indent(d, fmt) + PrintStringPtr(cs[0].name) + Colon(fmt),
      PrintValue(IntegerRender, cs[0], d, fmt).value, j);
    AtSplit(s, p, Indent(d, fmt) + PrintStringPtr(cs[0].name), Colon(fmt), k);
    AtSplit(s, p, Indent(d, fmt), PrintStringPtr(cs[0].name), q);
  }

  /** What follows a member's value starts with a comma, a newline or the
      closing brace. */
  lemma AfterMember(cs: seq<Node>, d: nat, fmt: bool, s: seq<char>, m: nat, p: nat, e: nat)
    requires d >= 1 && PrintEntries(IntegerRender, cs, d, fmt).Some?
    requires p == m + |Trailer(cs != [], fmt)|
    requires e == p + |MemberLines(PrintNames(cs), PrintEntries(IntegerRender, cs, d, fmt).value, d, fmt)|
    requires At(s, m, Trailer(cs != [], fmt)) && At(s, e, ObjectClose(d, fmt))
    ensures m < |s| && !ContinuesNumber(s[m])
  {
    if cs != [] || fmt {
      AtIndex(s, m, Trailer(cs != [], fmt), 0);
    } else {
      AtIndex(s, e, ObjectClose(d, fmt), 0);
    }
  }

  /** The end of an object body at `j`: the newline, then at `e` the
      closing indentation when formatting and `}`. */
  lemma ClosingLayout(d: nat, fmt: bool, s: seq<char>, j: nat, e: nat, x: nat)
    requires d >= 1
    requires e == j + |Newline(fmt)| && x == e + |Indent(d - 1, fmt)|
    requires At(s, j, Newline(fmt)) && At(s, e, ObjectClose(d, fmt))
    ensures Skip(s, j) == x && x < |s| && s[x] == '}' && |ObjectClose(d, fmt)| == |Indent(d - 1, fmt)| + 1
  {
    var ind := Indent(d - 1, fmt);
    assert ObjectClose(d, fmt) == ind + ['}'];
    AtSplit(s, e, ind, ['}'], x);
    AtIndex(s, x, ['}'], 0);
    LayoutBlank(d - 1, fmt);
    SkipOver2(s, j, Newline(fmt), ind, e, x);
  }


  /** A comma trailer at `m`: the skipper stops at the comma, and the
      newline follows it. */
  lemma CommaLayout(fmt: bool, s: seq<char>, m: nat)
    requires At(s, m, Trailer(true, fmt))
    ensures m < |s| && s[m] == ',' && Skip(s, m) == m && At(s, m + 1, Newline(fmt))
    ensures |Trailer(true, fmt)| == 1 + |Newline(fmt)|
  {
    AtConcat(s, m, [','], Newline(fmt));
    AtIndex(s, m, [','], 0);
    SolidStops(s, m);
  }

  /** The first of a list of well-formed elements, and the rest. */
  lemma ElementsHead(hash: Hasher, cs: seq<Node>)
    requires cs != [] && forall c | c in cs :: Unnamed(c) && WellFormed(hash, c)
    ensures Unnamed(cs[0]) && WellFormed(hash, cs[0])
    ensures forall c | c in cs[1..] :: Unnamed(c) && WellFormed(hash, c)
  {
    assert cs[0] in cs;
    assert forall c | c in cs[1..] :: c in cs;
  }

  /** The first of a list of well-formed members, and the rest. */
  lemma MembersHead(hash: Hasher, cs: seq<Node>)
    requires cs != [] && forall c | c in cs :: Member(hash, c) && WellFormed(hash, c)
    ensures Member(hash, cs[0]) && WellFormed(hash, cs[0])
    ensures forall c | c in cs[1..] :: Member(hash, c) && WellFormed(hash, c)
  {
    assert cs[0] in cs;
    assert forall c | c in cs[1..] :: c in cs;
  }

  lemma {:induction false} ArrayRoundTrip(hash: Hasher, t: Node, d: nat, fmt: bool, s: seq<char>, i: nat)
    requires WellFormed(hash, t) && t.kind == Array
    requires PrintArray(IntegerRender, t, d, fmt).Some?
    requires At(s, i, PrintArray(IntegerRender, t, d, fmt).value)
    ensures Yields(ParseArray(hash, s, i), Unname(t), i + |PrintArray(IntegerRender, t, d, fmt).value|)
    decreases t, 1
  {
    ContainerCanonical(hash, t);
    if t.children == [] {
      EmptyArrayRoundTrip(hash, t, d, fmt, s, i);
    } else {
      var k := i + 1 + |PrintEntries(IntegerRender, t.children, d + 1, fmt).value[0]|;
      var e := k + |SeparatedTail(PrintEntries(IntegerRender, t.children, d + 1, fmt).value[1..], ArraySeparator(fmt))|;
      ArrayLayout(t, d, fmt, s, i, k, e);
      ArrayElementsFormed(hash, t);
      ArrayBody(hash, t.children, d + 1, fmt, s, i, k, e);
    }
  }

  /** A non-empty array after the `[` at `i`: the first element up to `k`,
      then the separated rest up to `e`, where `]` stands. */
  lemma {:induction false} ArrayBody(hash: Hasher, cs: seq<Node>, d: nat, fmt: bool, s: seq<char>, i: nat, k: nat, e: nat)
    requires cs != [] && forall c | c in cs :: Unnamed(c) && WellFormed(hash, c)
    requires PrintValue(IntegerRender, cs[0], d, fmt).Some? && PrintEntries(IntegerRender, cs[1..], d, fmt).Some?
    requires i < |s| && s[i] == '['
    requires k == i + 1 + |PrintValue(IntegerRender, cs[0], d, fmt).value|
    requires e == k + |SeparatedTail(PrintEntries(IntegerRender, cs[1..], d, fmt).value, ArraySeparator(fmt))|
    requires At(s, i + 1, PrintValue(IntegerRender, cs[0], d, fmt).value)
    requires At(s, k, SeparatedTail(PrintEntries(IntegerRender, cs[1..], d, fmt).value, ArraySeparator(fmt)) + [']'])
    ensures Yields(ParseArray(hash, s, i), NewItem.(kind := Array, children := cs), e + 1)
    decreases cs, 2
  {
    ElementsHead(hash, cs);
    PrintedStart(hash, cs[0], d, fmt);
    AtIndex(s, i + 1, PrintValue(IntegerRender, cs[0], d, fmt).value, 0);
    SolidStops(s, i + 1);
    TailStart(PrintEntries(IntegerRender, cs[1..], d, fmt).value, fmt, s, k);
    SolidStops(s, k);
    ValueRoundTrip(hash, cs[0], d, fmt, s, i + 1, PrintValue(IntegerRender, cs[0], d, fmt).value, k);
    ElementsRoundTrip(hash, cs[1..], d, fmt, s, k);
    HeadTail(cs);
    ArrayStep(hash, s, i, cs[0], k, cs[1..], e + 1);
  }

  /** What follows an element: a separator or `]`. */
  lemma TailStart(es: seq<seq<char>>, fmt: bool, s: seq<char>, k: nat)
    requires At(s, k, SeparatedTail(es, ArraySeparator(fmt)) + [']'])
    ensures k < |s| && (s[k] == ',' || s[k] == ']')
  {
    AtIndex(s, k, SeparatedTail(es, ArraySeparator(fmt)) + [']'], 0);
  }

  lemma EmptyArrayRoundTrip(hash: Hasher, t: Node, d: nat, fmt: bool, s: seq<char>, i: nat)
    requires WellFormed(hash, t) && t.kind == Array && t.children == []
    requires PrintArray(IntegerRender, t, d, fmt).Some?
    requires At(s, i, PrintArray(IntegerRender, t, d, fmt).value)
    ensures Yields(ParseArray(hash, s, i), Unname(t), i + |PrintArray(IntegerRender, t, d, fmt).value|)
  {
    Canonical(hash, t);
    assert PrintArray(IntegerRender, t, d, fmt).value == ['[', ']'];
    AtIndex(s, i, ['[', ']'], 0);
    AtIndex(s, i, ['[', ']'], 1);
    SolidStops(s, i + 1);
  }

  /** The element list after the first element: each element preceded by
      the separator, then `]`. */
  lemma {:induction false} ElementsRoundTrip(hash: Hasher, cs: seq<Node>, d: nat, fmt: bool, s: seq<char>, k: nat)
    requires forall c | c in cs :: Unnamed(c) && WellFormed(hash, c)
    requires PrintEntries(IntegerRender, cs, d, fmt).Some?
    requires At(s, k, SeparatedTail(PrintEntries(IntegerRender, cs, d, fmt).value, ArraySeparator(fmt)) + [']'])
    ensures Yields(ParseElements(hash, s, k), cs,
                   k + |SeparatedTail(PrintEntries(IntegerRender, cs, d, fmt).value, ArraySeparator(fmt))| + 1)
    decreases cs, 1
  {
    if cs == [] {
      AtIndex(s, k, [']'], 0);
    } else {
      var j := k + |ArraySeparator(fmt)|;
      var m := j + |PrintEntries(IntegerRender, cs, d, fmt).value[0]|;
      NextElement(hash, cs, d, fmt, s, k, j, m);
      ElementsHead(hash, cs);
      ElementsRoundTrip(hash, cs[1..], d, fmt, s, m);
      HeadTail(cs);
      ElementsStep(hash, s, k, j, cs[0], m, cs[1..],
        m + |SeparatedTail(PrintEntries(IntegerRender, cs[1..], d, fmt).value, ArraySeparator(fmt))| + 1);
    }
  }

  /** A separator and an element, starting at `k`, read back as that
      element, with the rest of the list at `m`. */
  lemma {:induction false} NextElement(hash: Hasher, cs: seq<Node>, d: nat, fmt: bool, s: seq<char>, k: nat, j: nat, m: nat)
    requires cs != [] && forall c | c in cs :: Unnamed(c) && WellFormed(hash, c)
    requires PrintEntries(IntegerRender, cs, d, fmt).Some?
    requires At(s, k, SeparatedTail(PrintEntries(IntegerRender, cs, d, fmt).value, ArraySeparator(fmt)) + [']'])
    requires j == k + |ArraySeparator(fmt)| && m == j + |PrintEntries(IntegerRender, cs, d, fmt).value[0]|
    ensures k < |s| && s[k] == ',' && Skip(s, k + 1) == j
    ensures Yields(ParseValue(hash, s, j), cs[0], m) && m <= |s| && Skip(s, m) == m
    ensures PrintEntries(IntegerRender, cs[1..], d, fmt).Some?
    ensures At(s, m, SeparatedTail(PrintEntries(IntegerRender, cs[1..], d, fmt).value, ArraySeparator(fmt)) + [']'])
    ensures k + |SeparatedTail(PrintEntries(IntegerRender, cs, d, fmt).value, ArraySeparator(fmt))|
         == m + |SeparatedTail(PrintEntries(IntegerRender, cs[1..], d, fmt).value, ArraySeparator(fmt))|
    decreases cs, 0
  {
    ElementsHead(hash, cs);
    NextElementLayout(hash, cs, d, fmt, s, k, j, m);
    ValueRoundTrip(hash, cs[0], d, fmt, s, j, PrintValue(IntegerRender, cs[0], d, fmt).value, m);
  }

  /** The text of a separator and an element at `k`: the element's own
      text at `j`, then at `m` a separator or `]`. */
  lemma NextElementLayout(hash: Hasher, cs: seq<Node>, d: nat, fmt: bool, s: seq<char>, k: nat, j: nat, m: nat)
    requires cs != [] && Unnamed(cs[0]) && WellFormed(hash, cs[0])
    requires PrintEntries(IntegerRender, cs, d, fmt).Some?
    requires At(s, k, SeparatedTail(PrintEntries(IntegerRender, cs, d, fmt).value, ArraySeparator(fmt)) + [']'])
    requires j == k + |ArraySeparator(fmt)| && m == j + |PrintEntries(IntegerRender, cs, d, fmt).value[0]|
    ensures PrintValue(IntegerRender, cs[0], d, fmt).Some?
    ensures At(s, j, PrintValue(IntegerRender, cs[0], d, fmt).value)
    ensures m == j + |PrintValue(IntegerRender, cs[0], d, fmt).value|
    ensures k < |s| && s[k] == ',' && Skip(s, k + 1) == j
    ensures m < |s| && !ContinuesNumber(s[m]) && Skip(s, m) == m
    ensures PrintEntries(IntegerRender, cs[1..], d, fmt).Some?
    ensures At(s, m, SeparatedTail(PrintEntries(IntegerRender, cs[1..], d, fmt).value, ArraySeparator(fmt)) + [']'])
    ensures k + |SeparatedTail(PrintEntries(IntegerRender, cs, d, fmt).value, ArraySeparator(fmt))|
         == m + |SeparatedTail(PrintEntries(IntegerRender, cs[1..], d, fmt).value, ArraySeparator(fmt))|
  {
    EntriesHead(cs, d, fmt);
    PrintedStart(hash, cs[0], d, fmt);
    EntryText(PrintEntries(IntegerRender, cs, d, fmt).value, PrintEntries(IntegerRender, cs[1..], d, fmt).value,
              fmt, s, k, j, m);
  }

  /** The same, for the entry texts alone. */
  lemma EntryText(es: seq<seq<char>>, rest: seq<seq<char>>, fmt: bool, s: seq<char>, k: nat, j: nat, m: nat)
    requires es != [] && rest == es[1..] && |es[0]| > 0 && Solid(es[0][0])
    requires At(s, k, SeparatedTail(es, ArraySeparator(fmt)) + [']'])
    requires j == k + |ArraySeparator(fmt)| && m == j + |es[0]|
    ensures At(s, j, es[0])
    ensures k < |s| && s[k] == ',' && Skip(s, k + 1) == j
    ensures m < |s| && !ContinuesNumber(s[m]) && Skip(s, m) == m
    ensures At(s, m, SeparatedTail(rest, ArraySeparator(fmt)) + [']'])
    ensures k + |SeparatedTail(es, ArraySeparator(fmt))| == m + |SeparatedTail(rest, ArraySeparator(fmt))|
  {
    ElementsLayout(es, fmt, s, k);
    SolidStops(s, m);
  }

  lemma {:induction false} ObjectRoundTrip(hash: Hasher, t: Node, d: nat, fmt: bool, s: seq<char>, i: nat)
    requires WellFormed(hash, t) && t.kind == Object
    requires PrintObject(IntegerRender, t, d, fmt).Some?
    requires At(s, i, PrintObject(IntegerRender, t, d, fmt).value)
    ensures Yields(ParseObject(hash, s, Skip(s, i + 1)), Unname(t), i + |PrintObject(IntegerRender, t, d, fmt).value|)
    decreases t, 1
  {
    var p := i + 1 + |Newline(fmt)|;
    var e := p + |MemberLines(PrintNames(t.children), PrintEntries(IntegerRender, t.children, d + 1, fmt).value, d + 1, fmt)|;
    ObjectLayout(t, d, fmt, s, i, p, e);
    if t.children == [] {
      EmptyObjectRoundTrip(hash, t, d, fmt, s, i, e);
    } else {
      MembersObjectRoundTrip(hash, t, d, fmt, s, i, p, e);
    }
  }

  /** `{`, a newline and the closing, with the closing at `e`. */
  lemma EmptyObjectRoundTrip(hash: Hasher, t: Node, d: nat, fmt: bool, s: seq<char>, i: nat, e: nat)
    requires WellFormed(hash, t) && t.kind == Object && t.children == []
    requires e == i + 1 + |Newline(fmt)|
    requires At(s, i + 1, Newline(fmt)) && At(s, e, ObjectClose(d + 1, fmt))
    ensures Yields(ParseObject(hash, s, Skip(s, i + 1)), Unname(t), e + |ObjectClose(d + 1, fmt)|)
  {
    var b := i + 1;
    ContainerCanonical(hash, t);
    EmptyObjectBody(hash, d + 1, fmt, s, b, e, e + |Indent(d, fmt)|);
  }

  /** A printed object with members, the member lines at `p` and the
      closing at `e`. */
  lemma {:induction false} MembersObjectRoundTrip(hash: Hasher, t: Node, d: nat, fmt: bool, s: seq<char>, i: nat, p: nat, e: nat)
    requires WellFormed(hash, t) && t.kind == Object && t.children != []
    requires PrintEntries(IntegerRender, t.children, d + 1, fmt).Some?
    requires p == i + 1 + |Newline(fmt)|
    requires e == p + |MemberLines(PrintNames(t.children), PrintEntries(IntegerRender, t.children, d + 1, fmt).value, d + 1, fmt)|
    requires At(s, i + 1, Newline(fmt))
    requires At(s, p, MemberLines(PrintNames(t.children), PrintEntries(IntegerRender, t.children, d + 1, fmt).value, d + 1, fmt))
    requires At(s, e, ObjectClose(d + 1, fmt))
    ensures Yields(ParseObject(hash, s, Skip(s, i + 1)), Unname(t), e + |ObjectClose(d + 1, fmt)|)
    decreases t, 0
  {
    var cs := t.children;
    var b := i + 1;
    ObjectMembersFormed(hash, t);
    ObjectBody(hash, cs, d + 1, fmt, s, b, p, e);
    ContainerCanonical(hash, t);
  }

  /** The members of a well-formed object are well-formed members. */
  lemma ObjectMembersFormed(hash: Hasher, t: Node)
    requires WellFormed(hash, t) && t.kind == Object
    ensures forall c | c in t.children :: Member(hash, c) && WellFormed(hash, c)
  {
  }

  /** The elements of a well-formed array are well formed and unnamed. */
  lemma ArrayElementsFormed(hash: Hasher, t: Node)
    requires WellFormed(hash, t) && t.kind == Array
    ensures forall c | c in t.children :: Unnamed(c) && WellFormed(hash, c)
  {
  }

  /** An object body without members from `j`, just after the `{`, closed
      at `e`: the skipper reaches the `}` at `x`. */
  lemma EmptyObjectBody(hash: Hasher, d: nat, fmt: bool, s: seq<char>, j: nat, e: nat, x: nat)
    requires d >= 1
    requires e == j + |Newline(fmt)| && x == e + |Indent(d - 1, fmt)|
    requires At(s, j, Newline(fmt)) && At(s, e, ObjectClose(d, fmt))
    ensures Skip(s, j) == x && x + 1 == e + |ObjectClose(d, fmt)|
    ensures Yields(ParseObject(hash, s, x), NewItem.(kind := Object), x + 1)
  {
    ClosingLayout(d, fmt, s, j, e, x);
    ObjectClosed(hash, s, x);
  }

  /** A non-empty object body from `b`, just after the `{`, with the member
      lines at `p` and the closing at `e`. */
  lemma {:induction false} ObjectBody(hash: Hasher, cs: seq<Node>, d: nat, fmt: bool, s: seq<char>, b: nat, p: nat, e: nat)
    requires d >= 1 && cs != []
    requires forall c | c in cs :: Member(hash, c) && WellFormed(hash, c)
    requires PrintEntries(IntegerRender, cs, d, fmt).Some?
    requires p == b + |Newline(fmt)|
    requires e == p + |MemberLines(PrintNames(cs), PrintEntries(IntegerRender, cs, d, fmt).value, d, fmt)|
    requires At(s, b, Newline(fmt))
    requires At(s, p, MemberLines(PrintNames(cs), PrintEntries(IntegerRender, cs, d, fmt).value, d, fmt))
    requires At(s, e, ObjectClose(d, fmt))
    ensures Yields(ParseObject(hash, s, Skip(s, b)), NewItem.(kind := Object, children := cs), e + |ObjectClose(d, fmt)|)
    decreases cs, 1
  {
    var q := p + |Indent(d, fmt)|;
    var k := q + |PrintStringPtr(cs[0].name)|;
    var j := k + |Colon(fmt)|;
    var n := j + |PrintEntries(IntegerRender, cs, d, fmt).value[0]|;
    var r := n + |Trailer(cs[1..] != [], fmt)|;
    NextMember(hash, cs, d, fmt, s, b, p, e, q, k, j, n, r);
    MembersHead(hash, cs);
    MembersRoundTrip(hash, cs[1..], d, fmt, s, n, r, e);
    HeadTail(cs);
    ObjectStep(hash, s, q, cs[0], n, cs[1..], e + |ObjectClose(d, fmt)|);
  }

  /** The printed object at `i`: `{`, the newline, the member lines at `p`
      and the closing at `e`. */
  lemma ObjectLayout(t: Node, d: nat, fmt: bool, s: seq<char>, i: nat, p: nat, e: nat)
    requires PrintObject(IntegerRender, t, d, fmt).Some?
    requires At(s, i, PrintObject(IntegerRender, t, d, fmt).value)
    requires p == i + 1 + |Newline(fmt)|
    requires e == p + |MemberLines(PrintNames(t.children), PrintEntries(IntegerRender, t.children, d + 1, fmt).value, d + 1, fmt)|
    ensures At(s, i + 1, Newline(fmt))
    ensures At(s, p, MemberLines(PrintNames(t.children), PrintEntries(IntegerRender, t.children, d + 1, fmt).value, d + 1, fmt))
    ensures At(s, e, ObjectClose(d + 1, fmt))
    ensures |PrintObject(IntegerRender, t, d, fmt).value| == e + |ObjectClose(d + 1, fmt)| - i
  {
    AtSplit(s, i, ObjectOpen(fmt)
      + MemberLines(PrintNames(t.children), PrintEntries(IntegerRender, t.children, d + 1, fmt).value, d + 1, fmt),
      ObjectClose(d + 1, fmt), e);
    AtSplit(s, i, ObjectOpen(fmt),
      MemberLines(PrintNames(t.children), PrintEntries(IntegerRender, t.children, d + 1, fmt).value, d + 1, fmt), p);
    AtSplit(s, i, ['{'], Newline(fmt), i + 1);
  }

  /** The first member of an object body from `b`, just after the `{` or
      the previous member's comma, with the member lines at `p` and the
      closing at `e`: the skipper reaches its name at `q`, and it reads back
      as the member, ending at `n`, where the trailer starts; the lines of
      the rest follow at `r`. */
  lemma {:induction false} NextMember(hash: Hasher, cs: seq<Node>, d: nat, fmt: bool, s: seq<char>, b: nat, p: nat, e: nat, q: nat, k: nat, j: nat, n: nat, r: nat)
    requires d >= 1 && cs != [] && forall c | c in cs :: Member(hash, c) && WellFormed(hash, c)
    requires PrintEntries(IntegerRender, cs, d, fmt).Some?
    requires p == b + |Newline(fmt)|
    requires e == p + |MemberLines(PrintNames(cs), PrintEntries(IntegerRender, cs, d, fmt).value, d, fmt)|
    requires At(s, b, Newline(fmt))
    requires At(s, p, MemberLines(PrintNames(cs), PrintEntries(IntegerRender, cs, d, fmt).value, d, fmt))
    requires At(s, e, ObjectClose(d, fmt))
    requires q == p + |Indent(d, fmt)| && k == q + |PrintStringPtr(cs[0].name)| && j == k + |Colon(fmt)|
    requires n == j + |PrintEntries(IntegerRender, cs, d, fmt).value[0]|
    requires r == n + |Trailer(cs[1..] != [], fmt)|
    ensures Skip(s, b) == q && q < |s| && s[q] == '"' && Skip(s, q) == q
    ensures Yields(ParseMember(hash, s, q), cs[0], n)
    ensures PrintEntries(IntegerRender, cs[1..], d, fmt).Some?
    ensures At(s, n, Trailer(cs[1..] != [], fmt))
    ensures At(s, r, MemberLines(PrintNames(cs[1..]), PrintEntries(IntegerRender, cs[1..], d, fmt).value, d, fmt))
    ensures e == r + |MemberLines(PrintNames(cs[1..]), PrintEntries(IntegerRender, cs[1..], d, fmt).value, d, fmt)|
    decreases cs, 0
  {
    FirstMemberLine(cs, d, fmt, s, p, q, k, j, n, r);
    MembersHead(hash, cs);
    AtIndex(s, q, PrintStringPtr(cs[0].name), 0);
    SolidStops(s, q);
    LayoutBlank(d, fmt);
    SkipOver2(s, b, Newline(fmt), Indent(d, fmt), p, q);
    AfterMember(cs[1..], d, fmt, s, n, r, e);
    MemberRoundTrip(hash, cs[0], d, fmt, s, q, k, j, n);
  }

  /** A printed name reads back as the key. */
  lemma QuotedKey(s: seq<char>, q: nat, key: seq<char>)
    requires NoNul(key) && At(s, q, PrintStringPtr(Some(key)))
    ensures Yields(ParseKey(s, q), key, q + |PrintStringPtr(Some(key))|)
  {
    EscapeRoundTrip(s, q, key);
    CStringOfNoNul(key);
    AtIndex(s, q, PrintStringPtr(Some(key)), 0);
  }

  /** The skipper stops at a printed colon, and after it at the solid byte
      that follows. */
  lemma ColonSkipped(s: seq<char>, k: nat, fmt: bool)
    requires At(s, k, Colon(fmt)) && k + |Colon(fmt)| < |s| && Solid(s[k + |Colon(fmt)|])
    ensures k < |s| && s[k] == ':' && Skip(s, k) == k && Skip(s, k + 1) == k + |Colon(fmt)|
  {
    var j := k + |Colon(fmt)|;
    AtIndex(s, k, Colon(fmt), 0);
    assert StopsAt(s, k);
    assert At(s, k + 1, Colon(fmt)[1..]) by {
      assert s[k + 1..j] == s[k..j][1..];
    }
    SkipOver(s, k + 1, Colon(fmt)[1..]);
  }

  /** One member's printed name, colon and value parse back to the member,
      name and hash included. */
  lemma {:induction false} MemberRoundTrip(hash: Hasher, c: Node, d: nat, fmt: bool, s: seq<char>, q: nat, k: nat, j: nat, n: nat)
    requires Member(hash, c) && WellFormed(hash, c)
    requires PrintValue(IntegerRender, c, d, fmt).Some?
    requires k == q + |PrintStringPtr(c.name)| && j == k + |Colon(fmt)|
    requires n == j + |PrintValue(IntegerRender, c, d, fmt).value|
    requires At(s, q, PrintStringPtr(c.name)) && At(s, k, Colon(fmt))
    requires At(s, j, PrintValue(IntegerRender, c, d, fmt).value)
    requires n < |s| ==> !ContinuesNumber(s[n])
    ensures Yields(ParseMember(hash, s, q), c, n)
    decreases c, 4
  {
    var key := c.name.value;
    PrintedStart(hash, c, d, fmt);
    AtIndex(s, j, PrintValue(IntegerRender, c, d, fmt).value, 0);
    KeyAndColon(s, q, key, k, j, fmt);
    ValueRoundTrip(hash, c, d, fmt, s, j, PrintValue(IntegerRender, c, d, fmt).value, n);
    assert Unname(c).(nameHash := hash(key), name := Some(key)) == c;
    MemberStep(hash, s, q, key, k, j, Unname(c), n);
  }

  /** A printed key at `q` and a printed colon at `k`, followed at `j` by a
      solid byte: the key reads back and the skipper lands on `j`. */
  lemma KeyAndColon(s: seq<char>, q: nat, key: seq<char>, k: nat, j: nat, fmt: bool)
    requires NoNul(key) && k == q + |PrintStringPtr(Some(key))| && j == k + |Colon(fmt)|
    requires At(s, q, PrintStringPtr(Some(key))) && At(s, k, Colon(fmt))
    requires j < |s| && Solid(s[j])
    ensures q <= |s| && Yields(ParseKey(s, q), key, k)
    ensures Skip(s, k) == k && k < |s| && s[k] == ':' && Skip(s, k + 1) == j
  {
    QuotedKey(s, q, key);
    ColonSkipped(s, k, fmt);
  }

  /** The members after the first: at `m` the previous member's trailer,
      at `p` the remaining member lines and at `e` the closing. */
  lemma {:induction false} MembersRoundTrip(hash: Hasher, cs: seq<Node>, d: nat, fmt: bool, s: seq<char>, m: nat, p: nat, e: nat)
    requires d >= 1
    requires forall c | c in cs :: Member(hash, c) && WellFormed(hash, c)
    requires PrintEntries(IntegerRender, cs, d, fmt).Some?
    requires p == m + |Trailer(cs != [], fmt)|
    requires e == p + |MemberLines(PrintNames(cs), PrintEntries(IntegerRender, cs, d, fmt).value, d, fmt)|
    requires At(s, m, Trailer(cs != [], fmt))
    requires At(s, p, MemberLines(PrintNames(cs), PrintEntries(IntegerRender, cs, d, fmt).value, d, fmt))
    requires At(s, e, ObjectClose(d, fmt))
    ensures Yields(ParseMembers(hash, s, Skip(s, m)), cs, e + |ObjectClose(d, fmt)|)
    decreases cs, 2
  {
    if cs == [] {
      NoMoreMembers(hash, d, fmt, s, m, e);
    } else {
      MoreMembers(hash, cs, d, fmt, s, m, p, e);
    }
  }

  /** After the last member: the newline and the closing. */
  lemma NoMoreMembers(hash: Hasher, d: nat, fmt: bool, s: seq<char>, m: nat, e: nat)
    requires d >= 1
    requires e == m + |Newline(fmt)|
    requires At(s, m, Newline(fmt)) && At(s, e, ObjectClose(d, fmt))
    ensures Yields(ParseMembers(hash, s, Skip(s, m)), [], e + |ObjectClose(d, fmt)|)
  {
    var x := e + |Indent(d - 1, fmt)|;
    ClosingLayout(d, fmt, s, m, e, x);
    MembersClosed(hash, s, x);
  }

  /** A comma and at least one more member. */
  lemma {:induction false} MoreMembers(hash: Hasher, cs: seq<Node>, d: nat, fmt: bool, s: seq<char>, m: nat, p: nat, e: nat)
    requires d >= 1 && cs != []
    requires forall c | c in cs :: Member(hash, c) && WellFormed(hash, c)
    requires PrintEntries(IntegerRender, cs, d, fmt).Some?
    requires p == m + |Trailer(true, fmt)|
    requires e == p + |MemberLines(PrintNames(cs), PrintEntries(IntegerRender, cs, d, fmt).value, d, fmt)|
    requires At(s, m, Trailer(true, fmt))
    requires At(s, p, MemberLines(PrintNames(cs), PrintEntries(IntegerRender, cs, d, fmt).value, d, fmt))
    requires At(s, e, ObjectClose(d, fmt))
    ensures Yields(ParseMembers(hash, s, Skip(s, m)), cs, e + |ObjectClose(d, fmt)|)
    decreases cs, 1
  {
    var q := p + |Indent(d, fmt)|;
    var k := q + |PrintStringPtr(cs[0].name)|;
    var j := k + |Colon(fmt)|;
    var n := j + |PrintEntries(IntegerRender, cs, d, fmt).value[0]|;
    var r := n + |Trailer(cs[1..] != [], fmt)|;
    CommaLayout(fmt, s, m);
    NextMember(hash, cs, d, fmt, s, m + 1, p, e, q, k, j, n, r);
    MembersHead(hash, cs);
    MembersRoundTrip(hash, cs[1..], d, fmt, s, n, r, e);
    HeadTail(cs);
    MembersStep(hash, s, m, q, cs[0], n, cs[1..], e + |ObjectClose(d, fmt)|);
  }

  // ---------------------------------------------------------------------
  // Whole documents.

  /** The `%d` text is a sign and digits, never a NUL byte. */
  lemma IntegerRenderClean()
    ensures CleanRenderer(IntegerRender)
  {
    forall n | IntegerRender(n).Some?
      ensures NoNul(IntegerRender(n).value)
    {
      NoNulConcat(if n.negative then ['-'] else [], DecimalText(n.mantissa));
    }
  }

  /** `sJSONparse` reads back what `sJSONprint` or `sJSONprintUnformatted`
      wrote for an array or object: the text is a C string, all of it is
      consumed, and the tree is the original without its name. */
  lemma PrintThenParse(hash: Hasher, t: Node, fmt: bool, v: seq<char>)
    requires WellFormed(hash, t) && (t.kind == Array || t.kind == Object)
    requires PrintValue(IntegerRender, t, 0, fmt) == Some(v)
    ensures NoNul(v)
    ensures Yields(Parse(hash, v), Unname(t), |v|)
  {
    IntegerRenderClean();
    PrintedNoNul(IntegerRender, t, 0, fmt);
    PrintedStart(hash, t, 0, fmt);
    assert StopsAt(v, 0);
    assert v[0..|v|] == v;
    ValueRoundTrip(hash, t, 0, fmt, v, 0, v, |v|);
  }

  /** Parsing is a fixpoint of print-then-parse: a parsed document, printed
      formatted or not, parses back to the very same tree. */
  lemma ReparseParsed(hash: Hasher, text: seq<char>, fmt: bool, v: seq<char>)
    requires NoNul(text) && Parse(hash, text).Ok?
    requires PrintValue(IntegerRender, Parse(hash, text).value, 0, fmt) == Some(v)
    ensures NoNul(v)
    ensures Yields(Parse(hash, v), Parse(hash, text).value, |v|)
  {
    PrintThenParse(hash, Parse(hash, text).value, fmt, v);
  }
}

=== FILE: skipper.dfy ===
// The lexical skipper `skip` (sjson.cpp, lines 313-342): steps over bytes
// 1..32, `//` line comments and `/* */` block comments until none is left.
//
// Two cases the C code leaves undefined get a defined end here: a block
// comment that never closes, and one whose last `*` is the final byte,
// both run to the end of the input instead of reading past it.
module Skipper {
  import opened Base

  /** A byte the skipper steps over (the terminator, code 0, never is). */
  predicate IsBlank(c: char) { 0 < c as int <= 32 }

  predicate StartsLineComment(s: seq<char>, i: nat) {
    i + 1 < |s| && s[i] == '/' && s[i + 1] == '/'
  }

  predicate StartsBlockComment(s: seq<char>, i: nat) {
    i + 1 < |s| && s[i] == '/' && s[i + 1] == '*'
  }

  // A `*/` starts at position `j`.
  predicate ClosesAt(s: seq<char>, j: int) {
    0 <= j && j + 1 < |s| && s[j] == '*' && s[j + 1] == '/'
  }

  /** The first carriage return or line feed at or after `i`, or the end. */
  function LineCommentEnd(s: seq<char>, i: nat): (r: nat)
    requires i <= |s|
    ensures i <= r <= |s|
    ensures r < |s| ==> s[r] == '\n' || s[r] == '\r'
    ensures forall k :: i <= k < r ==> s[k] != '\n' && s[k] != '\r'
    decreases |s| - i
  {
    if i == |s| || s[i] == '\n' || s[i] == '\r' then i else LineCommentEnd(s, i + 1)
  }

  // The position just past the first `*/` whose `*` is at or after `k`;
  // the end of the input when there is none. The search starts on the
  // opening `/`, so the `*` of the opener may be the `*` of the closer:
  // `/*/` is a complete comment.
  function BlockCommentEnd(s: seq<char>, k: nat): (r: nat)
    requires k <= |s|
    ensures k <= r <= |s|
    ensures (k <= r - 2 && ClosesAt(s, r - 2))
         || (r == |s| && forall j :: k <= j ==> !ClosesAt(s, j))
    ensures forall j :: k <= j < r - 2 ==> !ClosesAt(s, j)
    decreases |s| - k
  {
    if k == |s| then |s|
    else if s[k] != '*' then BlockCommentEnd(s, k + 1)
    else if k + 1 == |s| then |s|
    else if s[k + 1] == '/' then k + 2
    else BlockCommentEnd(s, k + 1)
  }

  /** A position the skipper stops at: not a blank, not a comment opener. */
  predicate StopsAt(s: seq<char>, i: nat) {
    (i < |s| ==> !IsBlank(s[i])) && !StartsLineComment(s, i) && !StartsBlockComment(s, i)
  }

  function Skip(s: seq<char>, i: nat): (r: nat)
    requires i <= |s|
    ensures i <= r <= |s|
    ensures StopsAt(s, r)
    ensures StopsAt(s, i) ==> r == i
    decreases |s| - i
  {
    if i < |s| && IsBlank(s[i]) then Skip(s, i + 1)
    else if StartsLineComment(s, i) then Skip(s, LineCommentEnd(s, i))
    else if StartsBlockComment(s, i) then Skip(s, BlockCommentEnd(s, i))
    else i
  }

  /** Skipping is idempotent: the second skip has nothing left to step over. */
  lemma SkipIdempotent(s: seq<char>, i: nat)
    requires i <= |s|
    ensures Skip(s, Skip(s, i)) == Skip(s, i)
  {
  }

  /** A run of blanks is stepped over as a whole. */
  lemma {:induction false} SkipBlanks(s: seq<char>, i: nat, j: nat)
    requires i <= j <= |s|
    requires forall k :: i <= k < j ==> IsBlank(s[k])
    ensures Skip(s, i) == Skip(s, j)
    decreases j - i
  {
    if i < j {
      SkipBlanks(s, i + 1, j);
    }
  }

  // `/*/` is a whole comment: the `*` of the opener also closes it.
  lemma SelfClosingComment(s: seq<char>, i: nat)
    requires At(s, i, "/*/")
    ensures Skip(s, i) == Skip(s, i + 3)
  {
    AtIndex(s, i, "/*/", 0);
    AtIndex(s, i, "/*/", 1);
    AtIndex(s, i, "/*/", 2);
    assert BlockCommentEnd(s, i + 1) == i + 3;
  }

  /** A block comment that never closes swallows the rest of the input. */
  lemma UnterminatedComment(s: seq<char>, i: nat)
    requires StartsBlockComment(s, i)
    requires forall j :: i <= j ==> !ClosesAt(s, j)
    ensures Skip(s, i) == |s|
  {
  }

  /** The cursor the C code hands to `skip`: a position, or the null
      pointer `parse_value` returns on failure. */
  datatype Cursor = NullCursor | Ptr(pos: nat)

  /** What calling `skip` does: it faults on a null read or returns. */
  datatype Call = Faults | Returns(cursor: Cursor)

  /** `skip` as written, on a cursor that may be null: the loop test at line
      317 checks the pointer, but the comment test at line 319 reads `*in`
      unchecked, so a null cursor is dereferenced. */
  function SkipAsWritten(s: seq<char>, c: Cursor): (r: Call)
    requires c.Ptr? ==> c.pos <= |s|
    ensures r.Faults? <==> c.NullCursor?
    ensures c.Ptr? ==> r.Returns? && r.cursor.Ptr? && c.pos <= r.cursor.pos && StopsAt(s, r.cursor.pos)
  {
    match c
    case NullCursor => Faults
    case Ptr(i) => Returns(Ptr(Skip(s, i)))
  }
}

=== FILE: strings.dfy ===
/** The string and identifier codec: `parse_string` (sjson.cpp, lines
    196-250), the bareword key lexer `parse_string_or_identifier` (lines
    155-192) and the escaper `print_string_ptr` (lines 253-296).

    The decoder is looser than section 7 of RFC 8259: the escapes that
    section lists decode as it specifies, but any other escaped byte stands
    for itself (`\q` is `q`) and raw control bytes pass through unescaped.
    `\uXXXX` is written out with the bit patterns of section 3 of RFC 3629
    for a single 16-bit code unit, lone surrogates included (surrogate pairs
    are not joined). The escaper writes only section-7 escapes. Where the C
    code reads past the terminator — a backslash as the last byte, or `\u`
    without four hex digits — the model fails with the error position on
    the backslash. */
module Strings {
  import opened Base

  const Backspace: char := 8 as char
  const FormFeed: char := 12 as char

  predicate IsHex(c: char) { '0' <= c <= '9' || 'a' <= c <= 'f' || 'A' <= c <= 'F' }

  function HexValue(c: char): (v: nat)
    requires IsHex(c)
    ensures v < 16
  {
    if c <= '9' then c as int - '0' as int
    else if c <= 'F' then c as int - 'A' as int + 10
    else c as int - 'a' as int + 10
  }

  /** Four hex digits start at position `k`. */
  predicate Hex4At(s: seq<char>, k: nat) {
    k + 4 <= |s| && IsHex(s[k]) && IsHex(s[k + 1]) && IsHex(s[k + 2]) && IsHex(s[k + 3])
  }

  /** The code unit `sscanf("%4x")` reads from four hex digits. */
  function Hex4(s: seq<char>, k: nat): (uc: nat)
    requires Hex4At(s, k)
    ensures uc < 0x10000
  {
    ((HexValue(s[k]) * 16 + HexValue(s[k + 1])) * 16 + HexValue(s[k + 2])) * 16 + HexValue(s[k + 3])
  }

  /** The bytes `parse_string` writes for `\uXXXX`: `(uc | 0x80) & 0xBF` is
      `0x80 + uc % 64`, and the lead byte or-s `firstByteMark[len]` into
      what is left after the shifts. */
  function Utf8(uc: nat): (r: seq<char>)
    requires uc < 0x10000
    ensures |r| == (if uc < 0x80 then 1 else if uc < 0x800 then 2 else 3)
  {
    if uc < 0x80 then [uc as char]
    else if uc < 0x800 then [(0xC0 + uc / 64) as char, (0x80 + uc % 64) as char]
    else [(0xE0 + uc / 4096) as char, (0x80 + uc / 64 % 64) as char, (0x80 + uc % 64) as char]
  }

  predicate IsContinuation(c: char) { 0x80 <= c as int < 0xC0 }

  /** The code point a one- to three-byte UTF-8 sequence denotes, read off
      the bit patterns of the table in section 3 of RFC 3629. */
  function Utf8Value(r: seq<char>): int
    requires 1 <= |r| <= 3
  {
    if |r| == 1 then r[0] as int
    else if |r| == 2 then (r[0] as int - 0xC0) * 64 + (r[1] as int - 0x80)
    else ((r[0] as int - 0xE0) * 64 + (r[1] as int - 0x80)) * 64 + (r[2] as int - 0x80)
  }

  /** The bytes written for `\uXXXX` are well-formed UTF-8 of the right
      length class and decode back to the code unit. */
  lemma Utf8Encodes(uc: nat)
    requires uc < 0x10000
    ensures Utf8Value(Utf8(uc)) == uc
    ensures uc < 0x80 ==> Utf8(uc)[0] as int < 0x80
    ensures 0x80 <= uc < 0x800 ==> 0xC0 <= Utf8(uc)[0] as int < 0xE0 && IsContinuation(Utf8(uc)[1])
    ensures 0x800 <= uc ==>
              0xE0 <= Utf8(uc)[0] as int < 0xF0 && IsContinuation(Utf8(uc)[1]) && IsContinuation(Utf8(uc)[2])
  {
    if uc >= 0x800 {
      assert uc == (uc / 4096) * 4096 + (uc / 64 % 64) * 64 + uc % 64;
    }
  }

  /** The character a two-character escape `\e` stands for (other than `\u`). */
  function Unescape(e: char): char
  {
    if e == 'b' then Backspace
    else if e == 'f' then FormFeed
    else if e == 'n' then '\n'
    else if e == 'r' then '\r'
    else if e == 't' then '\t'
    else e
  }

  /** The first pass of `parse_string`: the buffer length it allocates for,
      counting an escape `\X` as one byte whatever X is. */
  function MeasureBody(s: seq<char>, j: nat): nat
    decreases |s| + 2 - j
  {
    if j >= |s| || s[j] == '"' then 0
    else 1 + MeasureBody(s, if s[j] == '\\' then j + 2 else j + 1)
  }

  function Prepend(p: seq<char>, r: Res<seq<char>>): Res<seq<char>>
  {
    match r
    case Ok(v, n) => Ok(p + v, n)
    case Err(e) => Err(e)
  }

  /** The second pass of `parse_string`, from position `j` just after the
      opening quote: the decoded bytes and the position after the closing
      quote, or the end of the input for an unterminated string. */
  function DecodeBody(s: seq<char>, j: nat): (r: Res<seq<char>>)
    requires j <= |s|
    ensures r.Ok? ==> j <= r.next <= |s|
    ensures r.Ok? ==> |r.value| <= MeasureBody(s, j)
    ensures r.Err? ==> j <= r.pos < |s| && s[r.pos] == '\\'
    decreases |s| - j
  {
    if j == |s| then Ok([], j)
    else if s[j] == '"' then Ok([], j + 1)
    else if s[j] != '\\' then Prepend([s[j]], DecodeBody(s, j + 1))
    else if j + 1 == |s| then Err(j)
    else if s[j + 1] == 'u' then
      if Hex4At(s, j + 2) then
        MeasureUnicode(s, j);
        Prepend(Utf8(Hex4(s, j + 2)), DecodeBody(s, j + 6))
      else Err(j)
    else Prepend([Unescape(s[j + 1])], DecodeBody(s, j + 2))
  }

  /** The first pass counts `\uXXXX` as five bytes: the escape and each of
      the four hex digits, one byte apiece. */
  lemma MeasureUnicode(s: seq<char>, j: nat)
    requires j + 1 < |s| && s[j] == '\\' && s[j + 1] == 'u' && Hex4At(s, j + 2)
    ensures MeasureBody(s, j) == 5 + MeasureBody(s, j + 6)
  {
    assert MeasureBody(s, j + 2) == 1 + MeasureBody(s, j + 3);
    assert MeasureBody(s, j + 3) == 1 + MeasureBody(s, j + 4);
    assert MeasureBody(s, j + 4) == 1 + MeasureBody(s, j + 5);
  }

  /** A tab escape, and an escape of an ordinary byte that stands for the
      byte itself. */
  lemma DecodeShortEscapes()
    ensures DecodeString("\"a\\tb\\q\"", 0) == Ok(['a', '\t', 'b', 'q'], 8)
  {
    var s := "\"a\\tb\\q\"";
    var none: seq<char> := [];
    assert DecodeBody(s, 7) == Ok(none, 8);
    assert ['q'] + none == ['q'];
    assert DecodeBody(s, 5) == Ok(['q'], 8);
    assert ['b'] + ['q'] == ['b', 'q'];
    assert DecodeBody(s, 4) == Ok(['b', 'q'], 8);
    assert ['\t'] + ['b', 'q'] == ['\t', 'b', 'q'];
    assert DecodeBody(s, 2) == Ok(['\t', 'b', 'q'], 8);
    assert ['a'] + ['\t', 'b', 'q'] == ['a', '\t', 'b', 'q'];
  }

  /** `\u20AC` becomes the three UTF-8 bytes of the euro sign. */
  lemma DecodeEuro()
    ensures DecodeString("\"\\u20AC\"", 0) == Ok([0xE2 as char, 0x82 as char, 0xAC as char], 8)
  {
    var s := "\"\\u20AC\"";
    var none: seq<char> := [];
    assert Hex4At(s, 3) && Hex4(s, 3) == 0x20AC;
    assert DecodeBody(s, 7) == Ok(none, 8);
    assert Utf8(0x20AC) + none == [0xE2 as char, 0x82 as char, 0xAC as char];
  }

  /** A raw control byte inside the quotes is copied as it stands. */
  lemma DecodeRawControl()
    ensures DecodeString(['"', 1 as char, '"'], 0) == Ok([1 as char], 3)
  {
    var s: seq<char> := ['"', 1 as char, '"'];
    var none: seq<char> := [];
    assert DecodeBody(s, 2) == Ok(none, 3);
    assert [1 as char] + none == [1 as char];
  }

  /** A lone surrogate `\uD800` is written out as three bytes, ED A0 80, a
      sequence section 3 of RFC 3629 forbids. */
  lemma DecodeLoneSurrogate()
    ensures DecodeString("\"\\uD800\"", 0) == Ok([0xED as char, 0xA0 as char, 0x80 as char], 8)
  {
    var s := "\"\\uD800\"";
    var none: seq<char> := [];
    assert Hex4At(s, 3) && Hex4(s, 3) == 0xD800;
    assert DecodeBody(s, 7) == Ok(none, 8);
    assert Utf8(0xD800) + none == [0xED as char, 0xA0 as char, 0x80 as char];
  }

  /** A string that runs into the end of the input without its closing
      quote still succeeds, with the cursor at the end. */
  lemma DecodeUnterminated()
    ensures DecodeString("\"ab", 0) == Ok("ab", 3)
  {
    var s := "\"ab";
    var none: seq<char> := [];
    assert DecodeBody(s, 3) == Ok(none, 3);
    assert ['b'] + none == ['b'];
    assert DecodeBody(s, 2) == Ok(['b'], 3);
    assert ['a'] + ['b'] == "ab";
  }

  /** `parse_string` as a text function: the buffer it decodes from the
      string literal at `i`, and the cursor it returns. */
  function DecodeString(s: seq<char>, i: nat): (r: Res<seq<char>>)
    requires i <= |s|
    ensures r.Ok? ==> i < |s| && s[i] == '"' && i < r.next <= |s|
    ensures r.Ok? ==> |r.value| <= MeasureBody(s, i + 1)
    ensures r.Err? ==> i <= r.pos <= |s|
    ensures (i == |s| || s[i] != '"') ==> r == Err(i)
  {
    if i < |s| && s[i] == '"' then DecodeBody(s, i + 1) else Err(i)
  }

  predicate IsIdentStart(c: char) { c == '_' || 'a' <= c <= 'z' || 'A' <= c <= 'Z' }

  predicate IsIdentChar(c: char) { IsIdentStart(c) || IsDigit(c) }

  /** The end of the maximal run of identifier characters from `j`. */
  function IdentEnd(s: seq<char>, j: nat): (r: nat)
    requires j <= |s|
    ensures j <= r <= |s|
    ensures forall k :: j <= k < r ==> IsIdentChar(s[k])
    ensures r < |s| ==> !IsIdentChar(s[r])
    decreases |s| - j
  {
    if j < |s| && IsIdentChar(s[j]) then IdentEnd(s, j + 1) else j
  }

  /** `parse_string_or_identifier`: a quoted string, or a bareword
      `[A-Za-z_][A-Za-z0-9_]*`; the result is the key text a C reader of
      `valueString` sees. Anything else fails at `i`. */
  function ParseKey(s: seq<char>, i: nat): (r: Res<seq<char>>)
    requires i <= |s|
    ensures r.Ok? ==> i < r.next <= |s| && NoNul(r.value)
    ensures r.Ok? && s[i] != '"' ==>
      IsIdentStart(s[i]) && r.value == s[i..r.next]
      && (forall k :: i <= k < r.next ==> IsIdentChar(s[k]))
      && (r.next < |s| ==> !IsIdentChar(s[r.next]))
    ensures r.Err? ==> i <= r.pos <= |s|
    ensures r.Err? && (i == |s| || s[i] != '"') ==> r.pos == i
    ensures i < |s| && IsIdentStart(s[i]) ==> r.Ok?
  {
    if i < |s| && s[i] == '"' then
      match DecodeString(s, i)
      case Ok(buf, n) => Ok(CString(buf), n)
      case Err(e) => Err(e)
    else if i < |s| && IsIdentStart(s[i]) then
      var e := IdentEnd(s, i);
      Ok(s[i..e], e)
    else Err(i)
  }

  /** Lower-case hex digit, as `%x` prints it. */
  function HexDigit(n: nat): (c: char)
    requires n < 16
    ensures IsHex(c) && HexValue(c) == n
  {
    if n < 10 then (n + '0' as int) as char else (n - 10 + 'a' as int) as char
  }

  /** True for the bytes the first pass of `print_string_ptr` finds with
      `strchr`: quote, backslash and the five named control characters. */
  predicate HasShortEscape(c: char) {
    c == '"' || c == '\\' || c == Backspace || c == FormFeed || c == '\n' || c == '\r' || c == '\t'
  }

  /** What `print_string_ptr` writes for one byte. */
  function EscapeChar(c: char): seq<char>
  {
    if c as int > 31 && c != '"' && c != '\\' then [c]
    else if c == '\\' then ['\\', '\\']
    else if c == '"' then ['\\', '"']
    else if c == Backspace then ['\\', 'b']
    else if c == FormFeed then ['\\', 'f']
    else if c == '\n' then ['\\', 'n']
    else if c == '\r' then ['\\', 'r']
    else if c == '\t' then ['\\', 't']
    else ['\\', 'u', '0', '0', HexDigit(c as int / 16), HexDigit(c as int % 16)]
  }

  /** The first pass of `print_string_ptr`: the length it allocates for. */
  function EscapedLength(x: seq<char>): nat
  {
    if |x| == 0 then 0
    else 1 + (if HasShortEscape(x[0]) then 1 else if x[0] as int < 32 then 5 else 0)
         + EscapedLength(x[1..])
  }

  /** The escaped body, byte by byte; its length is what the first pass
      measured. */
  function EscapeBody(x: seq<char>): (r: seq<char>)
    ensures |r| == EscapedLength(x)
  {
    if |x| == 0 then [] else EscapeChar(x[0]) + EscapeBody(x[1..])
  }

  /** `print_string_ptr`: a null string prints as empty text, anything else
      as its escaped text in double quotes, of exactly the measured length
      plus the two quotes. */
  function PrintStringPtr(str: Option<seq<char>>): (r: seq<char>)
    ensures str.None? ==> r == []
    ensures str.Some? ==> |r| == EscapedLength(CString(str.value)) + 2
                          && r[0] == '"' && r[|r| - 1] == '"'
  {
    match str
    case None => []
    case Some(x) => ['"'] + EscapeBody(CString(x)) + ['"']
  }

  /** The decoder reads the escape of one non-NUL byte back as that byte. */
  lemma EscapeCharDecodes(s: seq<char>, j: nat, c: char)
    requires c != '\0'
    requires At(s, j, EscapeChar(c))
    ensures DecodeBody(s, j) == Prepend([c], DecodeBody(s, j + |EscapeChar(c)|))
  {
    var e := EscapeChar(c);
    AtIndex(s, j, e, 0);
    if |e| > 1 {
      AtIndex(s, j, e, 1);
    }
    if |e| == 6 {
      AtIndex(s, j, e, 2);
      AtIndex(s, j, e, 3);
      AtIndex(s, j, e, 4);
      AtIndex(s, j, e, 5);
      assert Hex4At(s, j + 2);
      assert Hex4(s, j + 2) == c as int;
    }
  }

  /** Decoding the escaped body of `x`, followed by a quote, gives back `x`
      and stops just past that quote. */
  lemma {:induction false} BodyRoundTrip(s: seq<char>, j: nat, x: seq<char>)
    requires NoNul(x)
    requires At(s, j, EscapeBody(x) + ['"'])
    ensures Yields(DecodeBody(s, j), x, j + |EscapeBody(x)| + 1)
    decreases |x|
  {
    if |x| == 0 {
      AtIndex(s, j, ['"'], 0);
    } else {
      var m := j + |EscapeChar(x[0])|;
      BodyLayout(s, j, x, m);
      BodyRoundTrip(s, m, x[1..]);
      BodyStep(s, j, x, m);
    }
  }

  /** One step of the decoding loop: if the rest decodes from `m`, the whole
      of `x` decodes from `j`. */
  lemma BodyStep(s: seq<char>, j: nat, x: seq<char>, m: nat)
    requires x != [] && NoNul(x)
    requires At(s, j, EscapeBody(x) + ['"']) && m == j + |EscapeChar(x[0])|
    requires Yields(DecodeBody(s, m), x[1..], m + |EscapeBody(x[1..])| + 1)
    ensures Yields(DecodeBody(s, j), x, j + |EscapeBody(x)| + 1)
  {
    BodyLayout(s, j, x, m);
    EscapeCharDecodes(s, j, x[0]);
    PrependYields(DecodeBody(s, j), DecodeBody(s, m), x, m + |EscapeBody(x[1..])| + 1);
  }

  /** The escaped body of a non-empty `x` at `j`: the escape of its first
      byte, then at `m` the escaped rest. */
  lemma BodyLayout(s: seq<char>, j: nat, x: seq<char>, m: nat)
    requires x != [] && NoNul(x)
    requires At(s, j, EscapeBody(x) + ['"']) && m == j + |EscapeChar(x[0])|
    ensures x[0] != '\0' && NoNul(x[1..])
    ensures At(s, j, EscapeChar(x[0])) && At(s, m, EscapeBody(x[1..]) + ['"'])
    ensures j + |EscapeBody(x)| == m + |EscapeBody(x[1..])|
  {
    assert EscapeBody(x) + ['"'] == EscapeChar(x[0]) + (EscapeBody(x[1..]) + ['"']);
    AtSplit(s, j, EscapeChar(x[0]), EscapeBody(x[1..]) + ['"'], m);
    assert forall k :: 0 <= k < |x[1..]| ==> x[1..][k] == x[k + 1];
  }

  /** A result that prepends the first byte of `x` to the rest of `x`
      yields `x`. */
  lemma PrependYields(r: Res<seq<char>>, rest: Res<seq<char>>, x: seq<char>, n: nat)
    requires x != [] && r == Prepend([x[0]], rest) && Yields(rest, x[1..], n)
    ensures Yields(r, x, n)
  {
    assert [x[0]] + x[1..] == x;
  }

  /** Escaping then decoding is the identity on NUL-free text, whatever
      follows the closing quote. */
  lemma EscapeRoundTrip(s: seq<char>, i: nat, x: seq<char>)
    requires NoNul(x)
    requires At(s, i, PrintStringPtr(Some(x)))
    ensures Yields(DecodeString(s, i), x, i + |PrintStringPtr(Some(x))|)
  {
    CStringOfNoNul(x);
    assert PrintStringPtr(Some(x)) == ['"'] + (EscapeBody(x) + ['"']);
    AtConcat(s, i, ['"'], EscapeBody(x) + ['"']);
    AtIndex(s, i, ['"'], 0);
    BodyRoundTrip(s, i + 1, x);
  }

  /** The escaper never writes a NUL byte: control characters, NUL included,
      come out as `\u00XX`. */
  lemma {:induction false} EscapeBodyNoNul(x: seq<char>)
    ensures NoNul(EscapeBody(x))
    decreases |x|
  {
    if |x| > 0 {
      EscapeBodyNoNul(x[1..]);
      NoNulConcat(EscapeChar(x[0]), EscapeBody(x[1..]));
    }
  }

  /** What `print_string_ptr` writes is itself a C string. */
  lemma PrintStringNoNul(str: Option<seq<char>>)
    ensures NoNul(PrintStringPtr(str))
  {
    if str.Some? {
      var body := EscapeBody(CString(str.value));
      EscapeBodyNoNul(CString(str.value));
      NoNulConcat(['"'], body);
      NoNulConcat(['"'] + body, ['"']);
    }
  }
}

=== FILE: tree.dfy ===
/** The document tree: the `sJSON` node of sjson.h, its kind tags and the
    `IsReference` bit, and the release order of `sJSONdelete`.

    The C node links siblings with `prev`/`next` and points at its first
    child; here a node simply owns the sequence of its children, in chain
    order. */
module Tree {
  import opened Base

  /** The seven node kinds (sjson.h, lines 28-34). */
  datatype Kind = False | True | Null | Number | String | Array | Object

  /** The numeric tag of each kind, as the `#define`s fix it. */
  function Tag(k: Kind): (t: bv32)
    ensures t < 7
  {
    match k
    case False => 0
    case True => 1
    case Null => 2
    case Number => 3
    case String => 4
    case Array => 5
    case Object => 6
  }

  /** The flag or-ed into the type word of a reference node. */
  const IsReference: bv32 := 256

  /** The kind a type tag denotes, if any. */
  function KindOfTag(t: bv32): Option<Kind>
  {
    if t == 0 then Some(False)
    else if t == 1 then Some(True)
    else if t == 2 then Some(Null)
    else if t == 3 then Some(Number)
    else if t == 4 then Some(String)
    else if t == 5 then Some(Array)
    else if t == 6 then Some(Object)
    else None
  }

  /** The tags are distinct and are read back by `KindOfTag`. */
  lemma TagsDistinct(j: Kind, k: Kind)
    ensures KindOfTag(Tag(k)) == Some(k)
    ensures Tag(j) == Tag(k) ==> j == k
  {
  }

  /** The exact value of a numeric literal: `(-1 if negative) * mantissa *
      10^exponent`. The C code folds this into a double; the model keeps the
      triple. */
  datatype Num = Num(negative: bool, mantissa: int, exponent: int)

  const NoNum := Num(false, 0, 0)

  /** One `sJSON` node. `str` is `valueString` (null is `None`), `name` is
      `nameString` (kept in builds with write support), `valueInt` is the
      integer field as far as it is not derived from a double. */
  datatype Node = Node(
    kind: Kind,
    isRef: bool,
    valueInt: int,
    str: Option<seq<char>>,
    num: Num,
    nameHash: bv32,
    name: Option<seq<char>>,
    children: seq<Node>)

  /** The hash `eastl::murmurString` that object members are stored and
      looked up under; its definition is not part of this model. */
  type Hasher = seq<char> -> bv32

  /** A node given a member name, as `sJSONaddItemToObject` and the member
      parser name it: its name replaced by the key and its hash by the key's
      hash. */
  function Named(hash: Hasher, key: seq<char>, item: Node): (r: Node)
    ensures r.name == Some(key) && r.nameHash == hash(key)
    ensures r.(name := item.name, nameHash := item.nameHash) == item
  {
    item.(name := Some(key), nameHash := hash(key))
  }

  /** A zero-filled node as `sJSON_New_Item` returns it; tag 0 is `False`. */
  const NewItem := Node(False, false, 0, None, NoNum, 0, None, [])

  /** The C `type` word: kind tag, plus `IsReference` for a reference. */
  function TypeWord(n: Node): bv32
  {
    Tag(n.kind) | (if n.isRef then IsReference else 0)
  }

  /** The kind `print_value` switches on: `type & 255`. */
  function KindOfType(t: bv32): Option<Kind>
  {
    KindOfTag(t & 255)
  }

  /** Masking with 255 recovers the kind of a reference node as well, and the
      `IsReference` bit is set exactly on references. */
  lemma TypeWordRecoversKind(n: Node)
    ensures KindOfType(TypeWord(n)) == Some(n.kind)
    ensures (TypeWord(n) & IsReference != 0) == n.isRef
  {
  }

  /** `create_reference`: a copy that shares the children and string of
      `item`, with the flag set, hash 0, no name and no siblings. */
  function Reference(item: Node): (r: Node)
    ensures r.isRef && r.nameHash == 0 && r.name == None
    ensures r.kind == item.kind && r.children == item.children && r.str == item.str
    ensures r.valueInt == item.valueInt && r.num == item.num
    ensures KindOfType(TypeWord(r)) == Some(item.kind)
  {
    TypeWordRecoversKind(item.(isRef := true, nameHash := 0, name := None));
    item.(isRef := true, nameHash := 0, name := None)
  }

  /** What `sJSONdelete` hands to the free hook, in order. */
  datatype Release = NodeRecord | StringBuffer(text: seq<char>) | NameBuffer(text: seq<char>)

  /** `sJSONdelete` on a sibling chain: each node in turn. */
  function DeleteChain(chain: seq<Node>): seq<Release>
    decreases chain
  {
    if |chain| == 0 then [] else DeleteNode(chain[0]) + DeleteChain(chain[1..])
  }

  /** The test `sJSONdelete` uses to decide whether a node owns its children
      and string: the `IsReference` bit of its type word is clear. */
  predicate Owns(c: Node) {
    TypeWord(c) & IsReference == 0
  }

  lemma OwnsExactlyNonReferences(c: Node)
    ensures Owns(c) <==> !c.isRef
  {
    TypeWordRecoversKind(c);
  }

  /** What one node releases after its children: its string if it owns it,
      its name, and the node record itself. */
  function OwnTail(c: Node): seq<Release>
  {
    (if Owns(c) && c.str.Some? then [StringBuffer(c.str.value)] else [])
    + (if c.name.Some? then [NameBuffer(c.name.value)] else [])
    + [NodeRecord]
  }

  /** One step of `sJSONdelete`: a node that is not a reference first releases
      its children and its string; every node releases its name and itself. */
  function DeleteNode(c: Node): seq<Release>
    decreases c
  {
    (if Owns(c) && |c.children| > 0 then DeleteChain(c.children) else []) + OwnTail(c)
  }

  lemma DeleteChainAppend(chain: seq<Node>, last: Node)
    ensures DeleteChain(chain + [last]) == DeleteChain(chain) + DeleteNode(last)
    decreases |chain|
  {
    if |chain| > 0 {
      assert (chain + [last])[1..] == chain[1..] + [last];
      DeleteChainAppend(chain[1..], last);
    }
  }

  /** Deleting a reference releases the reference record (and its own name)
      but neither the children nor the string it shares with the original. */
  lemma DeleteReference(item: Node, key: Option<seq<char>>)
    ensures DeleteNode(Reference(item).(name := key))
         == (if key.Some? then [NameBuffer(key.value)] else []) + [NodeRecord]
  {
    OwnsExactlyNonReferences(Reference(item).(name := key));
  }
}
